=== FILE: README.md ===
# Resource-node core of a decentralized storage network, in Dafny

This project models the sequential decision logic of a storage network's
resource node ("PP"). A PP stores and serves file slices and reports to an
indexing server ("SP"). The model covers three parts.

- **Slice geometry and slice messages** (`pp/requests/requests.go`):
  - the byte range of each 1-indexed slice;
  - the fragment builder for download responses, which tracks a raw (plaintext) and a wire (encrypted) offset range;
  - the plan lookup in upload and backup responses;
  - the wrong-slices request built from a download task's failure sets;
  - the two download-result reports;
  - the upload request, which resets the file's upload-progress entry.
- **Connection bookkeeping** (`pp/p2pserver/client.go`):
  - the per-SP-address reconnect backoff;
  - the session connection cache with prefix eviction;
  - client registration, the main-SP slot, and the close path with its lossy offline-event channel of capacity 2.
- **File-list handling** (`pp/event/find_file.go`):
  - the login gate on the request;
  - the RPC result code chosen for the SP's answer;
  - the projection of protocol file entries into RPC entries.

Everything is immutable data and pure functions. The registries are Dafny `map`s that each operation takes and returns. Iteration over a Go map or a `sync.Map`, whose order is unspecified, is a method that picks keys with `:|`, or an explicit iteration order passed as a parameter. Time is an explicit nanosecond instant. Go's `uint64` wrap-around and the `int64(uint64)` cast are written out (module `Uint`).

Files: `wrappers.dfy` (Option/Result), `uint.dfy`, `messages.dfy` (shared
message shapes), `slice_offsets.dfy`, `slice_split.dfy`, `slice_lookup.dfy`,
`download_report.dfy`, `wrong_slices.dfy`, `hex.dfy`, `upload_request.dfy`,
`backoff.dfy`, `connections.dfy`, `enumeration.dfy` (map iteration orders), `conn_cache.dfy`, `rpc_codes.dfy`,
`find_file.dfy`.

Points where the code behaves in a way that is easy to misread:

- The backoff window test reads the clock (`time.Now()`), while the stored record is stamped with the caller's `recordTime`. The model therefore takes both `now` and `recordTime`.
- A call exactly at the end of the window is refused.
- `CanConnectToSp` also allows a stored record whose address field differs from its key. `CanConnectAgreesWithRecord` shows that, for records stored under their own address, it gives the same decision as `RecordSpMaintenance`.
- A client is inserted into the pool under the server address but removed under the connection's name. These are kept as two keys, and `CloseRemovesRegistrationOnlyByName` states the consequence.
- `NewClientToMainSp` creates the main-SP connection with automatic reconnect off (its log line says otherwise).

## Model

| member | source | states |
|---|---|---|
| SliceOffsets.GetSliceOffset | pp/requests/requests.go:929-944 | start is (n-1)·size when n ≥ 1 and nothing wraps; end is exactly the file size for the last slice, else n·size; both are uint64 values |
| SliceOffsets.ZeroSliceNumberWraps | pp/requests/requests.go:929-932 | slice number 0 wraps the start to 2^64 − sliceSize |
| SliceOffsets.SliceBounds | pp/requests/requests.go:929-943 | in a valid plan every slice is a non-empty range inside the file, no longer than the slice size |
| SliceOffsets.SlicesContiguous | pp/requests/requests.go:932-938 | slice i ends where slice i+1 starts |
| SliceOffsets.SlicesDisjoint | pp/requests/requests.go:932-938 | earlier slices end before later ones start |
| SliceOffsets.SumOfLengthsReachesEnd | pp/requests/requests.go:929-943 | the lengths of slices 1..k add up to the end offset of slice k |
| SliceOffsets.SlicesSumToFileSize | pp/requests/requests.go:929-943 | the slice lengths add up to the file size exactly |
| SliceOffsets.SliceContainingCovers | pp/requests/requests.go:929-943 | every byte of the file lies in the slice p / size + 1 (the last slice takes the tail) |
| SliceOffsets.SliceOfByteUnique | pp/requests/requests.go:929-943 | no byte lies in two slices |
| SliceOffsets.EveryByteInOneSlice | pp/requests/requests.go:929-943 | a byte is in slice j if and only if j is the slice SliceContaining names |
| SliceOffsets.ThreeSliceExample | pp/requests/requests.go:929-943 | 2500 bytes in 1000-byte slices gives [0,1000), [1000,2000), [2000,2500) |
| SliceSplit.RspDownloadSliceDataSplit | pp/requests/requests.go:222-267 | NeedReport equals last and Data is the fragment payload; the wire range is [dataStart, dataEnd), with the end stretched to the slice size on the last fragment; the raw range is [offsetStart, offsetEnd), with the end stretched to the slice's raw end on the last fragment, and is the whole slice range for an encrypted slice; all other fields are copied |
| SliceSplit.FragmentAt | pp/requests/requests.go:222-257 | the k-th fragment of a slice is built from plan entry k and is marked last exactly at the final index |
| SliceSplit.ExactlyOneReport | pp/requests/requests.go:243-253 | a fragmented slice has exactly one fragment that asks for a report, the final one |
| SliceSplit.WireRangesTileSlice | pp/requests/requests.go:230-254 | with chained wire ranges, the fragments' wire ranges start at 0, follow one another, and end at the declared slice size |
| SliceSplit.EncryptedFragmentsCarryWholeRawRange | pp/requests/requests.go:259-264 | for an encrypted slice every fragment carries the raw range of the whole slice |
| SliceLookup.ScanFrom | pp/requests/requests.go:284-288 | the range loop stops at the first match; if nothing matches, it ends on the last entry |
| SliceLookup.PickSliceIndex | pp/requests/requests.go:283-288 | an empty plan gives no entry; otherwise the result is the first match, or the last index when no entry matches |
| SliceLookup.PickSlice | pp/requests/requests.go:283-288 | an empty plan gives nil; the chosen entry is preceded only by non-matching entries, so it is the first match when one exists and the last entry otherwise |
| SliceLookup.RspUploadFileSliceData | pp/requests/requests.go:282-302 | the response carries the chosen plan entry (nil for an empty plan), the task id, file hash and SP address of the assignment, the request's slice hash and wallet, the node's own address and beneficiary, and a success result |
| SliceLookup.RspBackupFileSliceData | pp/requests/requests.go:316-335 | an empty plan dereferences nil; otherwise the response carries the chosen entry, and its slice size is end − start of that entry in uint64 arithmetic |
| SliceLookup.InvertedOffsetsWrapBackupSize | pp/requests/requests.go:329 | a chosen entry with end < start yields a wrapped slice size of 2^64 + end − start |
| SliceLookup.UploadAndBackupAgree | pp/requests/requests.go:282-335 | upload and backup responses to the same plan report the same entry |
| Messages.JoinKey | pp/requests/requests.go:381 | a registry key is its first part followed by its second; split at the first part's length, the key gives back both parts |
| Messages.JoinKeyInjective | pp/requests/requests.go:381 | two keys with equal-length first parts are equal only when both parts are equal |
| Messages.JoinKeyAmbiguousExample | pp/requests/requests.go:381 | with first parts of different lengths, distinct pairs can collide: "a" + "bc" and "ab" + "c" give the same key |
| DownloadReport.TaskKeysSeparateWallets | pp/requests/requests.go:381 | the download task key is fileHash + walletAddress, so one file downloaded by two wallets gives two tasks |
| DownloadReport.BareSliceInfo | pp/requests/requests.go:392-408 | the entry sent without consulting the task carries only the message's slice number, hash and size; task id and storage address are empty and it is not marked visited |
| DownloadReport.ResolveSliceInfo | pp/requests/requests.go:378-410 | when isPP and the task is held, the report carries the task's own slice entry and marks it visited in the registry; an unknown slice gives no entry; otherwise the report carries a bare entry built from the message. Nothing else in the registry changes |
| DownloadReport.ReqReportDownloadResultData | pp/requests/requests.go:365-412 | the network report has the given cost time and is not found-locally; the opponent is the downloader when isPP, else the storage node; the slice entry comes from the task keyed by fileHash + walletAddress |
| DownloadReport.ReqReportDownloadResultDataForLocallyFoundSlice | pp/requests/requests.go:414-462 | the locally-found report has cost time 0 and is found-locally; the opponent is the downloader when isPP, else the slice's storage node; the same task key and slice-entry rules apply |
| DownloadReport.LocalReportIsZeroCostNetworkReport | pp/requests/requests.go:365-462 | a locally found slice is reported exactly like a zero-time network transfer, except for the found-locally flag, and both reports update the registry the same way |
| DownloadReport.ReportTwiceSameAsOnce | pp/requests/requests.go:381-386 | reporting the same slice twice repeats the first report and changes the registry no further |
| WrongSlices.RangeMap | pp/requests/requests.go:638-644 | iterating a map visits every key exactly once and pairs each key with its value |
| WrongSlices.ReqDownloadFileWrongData | pp/requests/requests.go:635-656 | FailedSlices lists each failed-slice key exactly once; FailedPpNodes lists each failed peer's value exactly once; task id, file hash and file indexes are copied |
| WrongSlices.EnumerationsArePermutations | pp/requests/requests.go:638-641 | two iteration orders of the same failure set are permutations of each other |
| Hex.DecodeString | pp/requests/requests.go:113-118 | hex decoding succeeds exactly on even-length strings of hex digits and yields one byte per digit pair |
| Hex.DecodeEncode | pp/requests/requests.go:114 | decoding a hex-encoded signature gives back the original bytes |
| Uint.Int64OfU64 | pp/requests/requests.go:144 | int64(fileSize) keeps sizes below 2^63, turns larger ones into the negative size − 2^64, and wraps back to the same uint64 |
| UploadRequest.FreshProgress | pp/requests/requests.go:143-146 | a fresh progress entry has nothing uploaded; its total is the file size when that fits in an int64, and the negative fileSize − 2^64 otherwise |
| UploadRequest.RequestUploadFile | pp/requests/requests.go:95-149 | a bad pubkey gives "wrong wallet pubkey" and a bad hex signature gives "wrong signature", and neither stores progress; on success the progress entry under the file hash becomes {fileSize, 0}, the encryption tag is empty if and only if the file is not encrypted, the storage path is "rpc:" + name, and the signature carries the decoded bytes |
| UploadRequest.RequestUploadFileData | pp/requests/requests.go:152-177 | the node's own upload passes the file info through and always resets the progress entry under the file hash, leaving other entries unchanged |
| UploadRequest.UploadEntryPointsAgree | pp/requests/requests.go:95-177 | feeding a successful owner request's parts to the node's own builder rebuilds the same request and the same progress map |
| UploadRequest.EncodedSignatureAccepted | pp/requests/requests.go:113-118 | a hex-encoded signature is accepted and its bytes round-trip into the request |
| UploadRequest.SameContentSharesProgress | pp/requests/requests.go:171-175 | two wallets uploading the same file hash share one progress entry, and the later upload's entry wins |
| Backoff.CanReconnect | pp/p2pserver/client.go:260-262 | an attempt is allowed exactly when strictly more than the stored interval, in seconds, has passed since the record's time |
| Backoff.WindowStaysOpen | pp/p2pserver/client.go:260-262 | once the window has elapsed, any later clock reading also finds it elapsed |
| Backoff.NextInterval | pp/p2pserver/client.go:231-232 | the grown interval is min(maximum, previous × multiplier): never above either bound, and equal to one of them |
| Backoff.RecordSpMaintenance | pp/p2pserver/client.go:224-247 | an attempt is allowed if and only if the address has no record or its window has strictly elapsed; a refusal changes nothing; a first attempt stores the minimum interval; a later allowed attempt stores the grown interval stamped with recordTime; other addresses are untouched |
| Backoff.CanConnectToSp | pp/p2pserver/client.go:249-258 | the query never mutates, and refuses only an address whose window has not elapsed |
| Backoff.RecordPreservesInvariants | pp/p2pserver/client.go:224-247 | recording keeps every record under its own address and every interval within [min, max] |
| Backoff.GrowthAtLeastPrevious | pp/p2pserver/client.go:231-232 | for an interval within bounds, the grown interval is never smaller |
| Backoff.IntervalNeverShrinks | pp/p2pserver/client.go:231-238 | an attempt never shortens the stored interval |
| Backoff.CanConnectAgreesWithRecord | pp/p2pserver/client.go:224-262 | for well-keyed records, the read-only check and the recording call decide alike at the same clock reading |
| Backoff.IntervalTraceMonotoneAndCapped | pp/p2pserver/client.go:224-247 | over any series of attempts, one address's intervals never decrease and stay within [min, max] |
| Backoff.ReplayIsolatesAddresses | pp/p2pserver/client.go:225-245 | attempts for one address leave every other address's record as it was |
| Backoff.BackoffExample | pp/p2pserver/client.go:224-262 | with min 30 s, multiplier 2 and max 600 s: 30, refused at 10 s, then 60, 120, 240, 480, 600, 600 |
| Backoff.BoundaryAttemptRefused | pp/p2pserver/client.go:260-262 | an attempt exactly at time + interval is refused and changes nothing |
| Connections.InitClient | pp/p2pserver/client.go:31-35 | a fresh registry has an empty pool, no main SP and an empty channel |
| Connections.ParsePort | pp/p2pserver/client.go:101-104 | the configured port is accepted exactly when it is a non-empty decimal number ≤ 65535, and its value is that decimal number, leading zeros included |
| Connections.PortRoundTrip | pp/p2pserver/client.go:101 | every port written in decimal parses back to itself |
| Connections.NewClient | pp/p2pserver/client.go:60-140 | a bad port fails with nothing changed; otherwise the connection goes into the pool under the server address with reconnect and !heartbeat options, and fills the main-SP slot when spconn |
| Connections.NewClientToMainSp | pp/p2pserver/client.go:44-48 | the main-SP connection has heartbeat on and reconnect off, and fills the main slot |
| Connections.NewClientToAlternativeSp | pp/p2pserver/client.go:50-53 | an alternative SP connection has no heartbeat and no reconnect, and leaves the main slot alone |
| Connections.NewClientToPp | pp/p2pserver/client.go:55-58 | a peer connection has the requested heartbeat and no reconnect, and leaves the main slot alone |
| Connections.OnClose | pp/p2pserver/client.go:68-99 | the pool entry under the connection's name is removed; a main SP with that name is cleared and flagged IsSp; the event is enqueued only if fewer than 2 are pending, otherwise dropped |
| Connections.ReadOffline | pp/p2pserver/client.go:174-176 | the receiver gets the oldest pending offline event |
| Connections.GetClientConn | pp/p2pserver/client.go:155-163 | the lookup finds a connection exactly when the address is in the pool |
| Connections.SpConnValid | pp/p2pserver/client.go:178-180 | the main link is valid exactly when the main slot holds a connection |
| Connections.GetSpName | pp/p2pserver/client.go:182-187 | the main SP's name, or the invalid-connection marker when there is no main SP |
| Connections.MainSpLossRaisesOneEvent | pp/p2pserver/client.go:84-98 | closing a freshly registered main SP clears the slot and enqueues exactly one IsSp event if there is room, and none otherwise |
| Connections.CloseRemovesRegistrationOnlyByName | pp/p2pserver/client.go:80-136 | closing a registered connection removes its pool entry exactly when its name equals the server address |
| Connections.PeerCloseKeepsMainSp | pp/p2pserver/client.go:88-92 | closing any other connection keeps the main SP and enqueues a non-SP event |
| Connections.MainSpValidUntilClosed | pp/p2pserver/client.go:44-187 | after the main SP registers, the link is valid and reports the transport name; after that connection closes, it is invalid and reports the invalid marker |
| ConnCache.StoreConnToCache | pp/p2pserver/client.go:190-192 | the key maps to the stored connection and every other key is unchanged |
| ConnCache.LoadConnFromCache | pp/p2pserver/client.go:195-201 | the load finds a connection exactly when the key is cached |
| ConnCache.DeleteConnFromCache | pp/p2pserver/client.go:204-206 | the key is removed and nothing else changes |
| ConnCache.StoreLoadDelete | pp/p2pserver/client.go:189-206 | a stored connection loads back, a deleted key loads nothing, and other keys are unaffected |
| ConnCache.CleanUpConnMap | pp/p2pserver/client.go:165-172 | exactly the keys with the file-hash prefix are evicted, and the remaining entries are unchanged |
| ConnCache.RangeCachedConn | pp/p2pserver/client.go:208-217 | only cached keys are handed to the callback |
| ConnCache.FullRangeVisitsAll | pp/p2pserver/client.go:216 | a full Range whose callback never stops visits the keys in iteration order |
| ConnCache.PrefixRangeCounts | pp/p2pserver/client.go:209-215 | with a distinct iteration order and a callback that never stops, the prefix pass visits each matching key once and no other key |
| ConnCache.RangeCachedConnVisitCounts | pp/p2pserver/client.go:208-217 | when the callback never asks to stop, prefix-matching entries are visited twice and all others once |
| RpcCodes.Wire | pp/api/rpc/types.go:4-20 | every code has a non-empty wire value; it is negative exactly for the eleven failure codes and is "0" exactly for SUCCESS (FromWire, its inverse, is a proof helper with no counterpart in the source) |
| RpcCodes.WireRoundTrip | pp/api/rpc/types.go:4-20 | every code's wire value reads back as the same code |
| RpcCodes.WireInjective | pp/api/rpc/types.go:4-20 | no two codes share a wire value |
| FindFile.ProjectFileInfo | pp/event/find_file.go:84-89 | hash, size, name and creation time are copied, and the sharing fields stay empty |
| FindFile.ProjectFileList | pp/event/find_file.go:73-90 | the projection keeps length and order, entry by entry |
| FindFile.DirectoriesProjectLikeFiles | pp/event/find_file.go:76-89 | the directory flag does not affect the projection |
| FindFile.FileListResultFor | pp/event/find_file.go:52-98 | an address mismatch gives WRONG_PP_ADDRESS and a forward, and takes precedence; a failed state gives INTERNAL_COMM_FAILURE; otherwise SUCCESS with the totals copied and the list projected |
| FindFile.ResultKeysSeparateRequests | pp/event/find_file.go:49 | results are stored under walletAddress + reqId, so one wallet's different requests never overwrite each other |
| FindFile.RspFindMyFileList | pp/event/find_file.go:37-101 | an undecodable answer stores and forwards nothing; a result is stored under wallet + reqId only when reqId is non-empty |
| FindFile.EmptyListIsSuccess | pp/event/find_file.go:65-71 | an empty list gives SUCCESS with the totals and no entries |
| FindFile.FindFileList | pp/event/find_file.go:20-28 | only a logged-in node sends the query and keeps the response writer; otherwise it answers "not logged in" and sends nothing |
| FindFile.QueriesKeepSeparateWriters | pp/event/find_file.go:20-28 | a later query with another request id never displaces an earlier query's writer; a refused query stores nothing |

## Left out

- Protobuf marshalling, and the reflection in `UnmarshalData`: a message that does not decode is an absent (`None`) input.
- Bech32 decoding of the wallet public key: it is an `Option` parameter.
- `utils.GetRandomString(8)` for the encryption tag: it is an 8-character parameter.
- Transport calls (`cf.CreateClientConn`, `Start`): the transport-assigned name and remote address of a new connection are a `TransportHandle` parameter.
- The node identity getters and settings: the local P2P address, wallet, beneficiary and PP info are a `LocalNode` parameter.
- `file.SaveRemoteFileHash`, `task.GetDownloadSlice`, `putData`, `storeResponseWriter` internals, forwarding sends, and logging: these are calls into packages outside this model. Forwarding is reported as a destination, and the writer store as a map.
- `pp/task` is not part of this model. `GetSliceInfo` is modelled as a lookup by slice hash in the task's slice table. Task progress counting and the per-slice state machine are not modelled.
- `RspDownloadSliceData`, `ReqReportStreamResultData`, the other pure message builders in requests.go, `ReqNodeStatusData` (floating-point CPU and memory probes), `RspGetHDInfoData` and `ReqRegisterNewPPData` (system probes): these are outside the modelled core.
- Concurrency: `sync.Map`, `clientMutex`, goroutines and the channel are modelled sequentially. Each operation is atomic, and the channel is a bounded sequence with drop-on-full. The nil and invalid-type checks on the closing connection (client.go:69-77) are not modelled.
- DownloadReport.ResolveSliceInfo: the registry update assumes that `task.GetSliceInfo` (in `pp/task`, not part of this model) returns the task's stored entry by pointer. Setting `VisitResult` on it (requests.go:384-386) then marks the stored entry visited. `ReportTwiceSameAsOnce` rests on the same assumption.
- Backoff.NextInterval: the source takes `math.Min` over float64 and converts back to int64. The model uses the integer minimum, which agrees for intervals that a float64 represents exactly. Overflow of `prev * multiplier` in int64, and of the interval in nanoseconds, is not modelled.
- Backoff.RecordSpMaintenance: the reconnect constants are defined outside client.go. They are a `BackoffConfig` parameter, and the lemmas assume 0 < min ≤ max and multiplier ≥ 1.
- SliceSplit.Fragments: the loop that cuts a slice into fragments lives outside requests.go. `Fragments` is the calling pattern under which the report property is stated: fragments in order, with `last` set only on the final one.
- Nil nested messages: every nested protobuf message in an input is assumed present. Only an empty plan, which leaves the loop variable nil, is modelled as a nil dereference (`SliceLookup.RspBackupFileSliceData`). The source would panic on a nil nested message at these sites, and the model has no such failure:
  - requests.go:225: `rsp.SliceInfo`;
  - requests.go:284 and 318: `target.RspUploadFile` and `target.RspBackupFile`;
  - requests.go:285 and 319: a nil entry of the plan;
  - requests.go:366 and 415: `target.SliceInfo` and `target.SliceStorageInfo` in the two report builders;
  - requests.go:329: the `SliceOffset` of the chosen backup entry;
  - requests.go:415-417: a nil `fileStorageInfoSP`;
  - requests.go:459: `target.StoragePpInfo`;
  - requests.go:172-175: a nil `fileInfo` in `RequestUploadFileData`;
  - find_file.go:59: `target.Result`.
- ConnCache.RangeCachedConn: the callback is a pure function of key and connection, and the cache does not change during either pass. A Go callback may store or delete entries, or carry state between calls. For example, one that deletes prefix entries in the first pass hides them from the second. The visit counts are stated only under this abstraction.
- `pp/peers/pp.go`, `pp/event/maintenance.go`, `pp/event/prepay.go`, `relay/` and `relayer/`: these are listener setup, send-and-log handlers, chain-event relay and CLI plumbing, with no decision logic. The request built in `find_file.go:22` calls `FindFileListData` with arguments that do not match its definition (requests.go:657). The model therefore sends the handler's own query arguments.

=== FILE: backoff.dfy ===
/**
 * Per-indexing-server reconnect backoff. Each address keeps the time of its last
 * allowed attempt and the interval that must elapse before the next one; every
 * allowed attempt multiplies the interval, up to a maximum. Times are
 * nanosecond instants; intervals are whole seconds.
 */
module Backoff {

  const NANOS_PER_SECOND: int := 1_000_000_000

  function Seconds(s: int): int {
    s * NANOS_PER_SECOND
  }

  /** The minimum and maximum interval (seconds) and the growth factor. */
  datatype BackoffConfig = BackoffConfig(minInterval: int, maxInterval: int, multiplier: int) {
    predicate Valid() {
      0 < minInterval <= maxInterval && 1 <= multiplier
    }
  }

  datatype ReconnectRecord = ReconnectRecord(spP2PAddress: string, time: int, nextAllowableReconnectInSec: int)

  type Records = map<string, ReconnectRecord>

  /** Whether `rec`'s window has elapsed at `now`; an attempt exactly at the boundary is too early. */
  function CanReconnect(rec: ReconnectRecord, now: int): (ok: bool)
    ensures ok <==> now - rec.time > rec.nextAllowableReconnectInSec * NANOS_PER_SECOND
    ensures ok && rec.nextAllowableReconnectInSec >= 0 ==> rec.time < now
  {
    now > rec.time + Seconds(rec.nextAllowableReconnectInSec)
  }

  /** Once a record's window has elapsed it stays elapsed: waiting longer never refuses again. */
  lemma WindowStaysOpen(rec: ReconnectRecord, now: int, later: int)
    requires CanReconnect(rec, now) && now <= later
    ensures CanReconnect(rec, later)
  {
  }

  /** The interval after an allowed attempt: the previous one multiplied, capped at the maximum. */
  function NextInterval(cfg: BackoffConfig, prev: int): (next: int)
    ensures next <= cfg.maxInterval
    ensures next == cfg.maxInterval || next == prev * cfg.multiplier
    ensures next <= prev * cfg.multiplier
  {
    var grown := prev * cfg.multiplier;
    if cfg.maxInterval < grown then cfg.maxInterval else grown
  }

  datatype Decision = Decision(allowed: bool, records: Records)

  /**
   * Whether to attempt a (re)connection to `spP2pAddress`, recording the attempt.
   * The window is tested against the clock `now`; an allowed attempt is stamped
   * with `recordTime`. A refused attempt changes nothing.
   */
  function RecordSpMaintenance(records: Records, spP2pAddress: string, recordTime: int, now: int, cfg: BackoffConfig): (d: Decision)
    ensures d.allowed <==> spP2pAddress !in records || CanReconnect(records[spP2pAddress], now)
    ensures !d.allowed ==> d.records == records
    ensures d.allowed ==> d.records.Keys == records.Keys + {spP2pAddress}
    ensures d.allowed ==> d.records[spP2pAddress].spP2PAddress == spP2pAddress && d.records[spP2pAddress].time == recordTime
    ensures spP2pAddress !in records ==> d.records[spP2pAddress].nextAllowableReconnectInSec == cfg.minInterval
    ensures spP2pAddress in records && d.allowed ==>
      d.records[spP2pAddress].nextAllowableReconnectInSec == NextInterval(cfg, records[spP2pAddress].nextAllowableReconnectInSec)
    ensures forall a :: a in records && a != spP2pAddress ==> a in d.records && d.records[a] == records[a]
  {
    if spP2pAddress in records then
      var last := records[spP2pAddress];
      if !CanReconnect(last, now) then Decision(false, records)
      else
        var next := NextInterval(cfg, last.nextAllowableReconnectInSec);
        Decision(true, records[spP2pAddress := ReconnectRecord(spP2pAddress, recordTime, next)])
    else
      Decision(true, records[spP2pAddress := ReconnectRecord(spP2pAddress, recordTime, cfg.minInterval)])
  }

  /** Read-only check of the same window: no record, or a record for another address, allows. */
  function CanConnectToSp(records: Records, p2pAddress: string, now: int): (ok: bool)
    ensures !ok ==> p2pAddress in records && !CanReconnect(records[p2pAddress], now)
  {
    if p2pAddress in records then
      var last := records[p2pAddress];
      !(last.spP2PAddress == p2pAddress && !CanReconnect(last, now))
    else true
  }

  /** Every record is stored under its own address. */
  predicate WellKeyed(records: Records) {
    forall a :: a in records ==> records[a].spP2PAddress == a
  }

  /** Every stored interval lies between the configured minimum and maximum. */
  predicate Bounded(records: Records, cfg: BackoffConfig) {
    forall a :: a in records ==> cfg.minInterval <= records[a].nextAllowableReconnectInSec <= cfg.maxInterval
  }

  /** Recording an attempt keeps records under their own addresses and intervals within bounds. */
  lemma RecordPreservesInvariants(records: Records, spP2pAddress: string, recordTime: int, now: int, cfg: BackoffConfig)
    requires cfg.Valid()
    ensures var d := RecordSpMaintenance(records, spP2pAddress, recordTime, now, cfg);
      && (WellKeyed(records) ==> WellKeyed(d.records))
      && (Bounded(records, cfg) ==> Bounded(d.records, cfg))
  {
    var d := RecordSpMaintenance(records, spP2pAddress, recordTime, now, cfg);
    if Bounded(records, cfg) && spP2pAddress in records && d.allowed {
      IntervalNeverShrinks(records, spP2pAddress, recordTime, now, cfg);
    }
  }

  /** For a bounded record the next interval is at least the current one. */
  lemma GrowthAtLeastPrevious(cfg: BackoffConfig, prev: int)
    requires cfg.Valid() && cfg.minInterval <= prev <= cfg.maxInterval
    ensures prev <= NextInterval(cfg, prev)
  {
    assert prev * cfg.multiplier - prev == prev * (cfg.multiplier - 1);
  }

  /** An attempt never shortens the stored interval of its address. */
  lemma IntervalNeverShrinks(records: Records, spP2pAddress: string, recordTime: int, now: int, cfg: BackoffConfig)
    requires cfg.Valid() && Bounded(records, cfg) && spP2pAddress in records
    ensures var d := RecordSpMaintenance(records, spP2pAddress, recordTime, now, cfg);
      records[spP2pAddress].nextAllowableReconnectInSec <= d.records[spP2pAddress].nextAllowableReconnectInSec
  {
    GrowthAtLeastPrevious(cfg, records[spP2pAddress].nextAllowableReconnectInSec);
  }

  /**
   * The read-only check and the recording call take the same decision at the
   * same clock reading, as long as every record sits under its own address.
   */
  lemma CanConnectAgreesWithRecord(records: Records, spP2pAddress: string, recordTime: int, now: int, cfg: BackoffConfig)
    requires WellKeyed(records)
    ensures CanConnectToSp(records, spP2pAddress, now) == RecordSpMaintenance(records, spP2pAddress, recordTime, now, cfg).allowed
  {
  }

  /** One attempt: the instant stamped on the record and the clock reading of the window test. */
  datatype Attempt = Attempt(recordTime: int, now: int)

  /** The records after a series of attempts for one address. */
  function Replay(records: Records, spP2pAddress: string, attempts: seq<Attempt>, cfg: BackoffConfig): Records
    decreases |attempts|
  {
    if |attempts| == 0 then records
    else
      var d := RecordSpMaintenance(records, spP2pAddress, attempts[0].recordTime, attempts[0].now, cfg);
      Replay(d.records, spP2pAddress, attempts[1..], cfg)
  }

  /** The address's interval after each attempt of a series. */
  function IntervalTrace(records: Records, spP2pAddress: string, attempts: seq<Attempt>, cfg: BackoffConfig): (t: seq<int>)
    ensures |t| == |attempts|
    decreases |attempts|
  {
    if |attempts| == 0 then []
    else
      var d := RecordSpMaintenance(records, spP2pAddress, attempts[0].recordTime, attempts[0].now, cfg);
      [d.records[spP2pAddress].nextAllowableReconnectInSec] + IntervalTrace(d.records, spP2pAddress, attempts[1..], cfg)
  }

  /**
   * Whatever the timing of the attempts, the interval sequence of one address
   * never decreases, never leaves [minimum, maximum], and does not fall below
   * the interval stored before the series.
   */
  lemma {:induction false} IntervalTraceMonotoneAndCapped(records: Records, spP2pAddress: string, attempts: seq<Attempt>, cfg: BackoffConfig)
    requires cfg.Valid() && Bounded(records, cfg)
    ensures var t := IntervalTrace(records, spP2pAddress, attempts, cfg);
      && (forall i :: 0 <= i < |t| ==> cfg.minInterval <= t[i] <= cfg.maxInterval)
      && (forall i, j :: 0 <= i < j < |t| ==> t[i] <= t[j])
      && (spP2pAddress in records && |t| > 0 ==> records[spP2pAddress].nextAllowableReconnectInSec <= t[0])
    decreases |attempts|
  {
    if |attempts| > 0 {
      var d := RecordSpMaintenance(records, spP2pAddress, attempts[0].recordTime, attempts[0].now, cfg);
      RecordPreservesInvariants(records, spP2pAddress, attempts[0].recordTime, attempts[0].now, cfg);
      if spP2pAddress in records {
        IntervalNeverShrinks(records, spP2pAddress, attempts[0].recordTime, attempts[0].now, cfg);
      }
      IntervalTraceMonotoneAndCapped(d.records, spP2pAddress, attempts[1..], cfg);
    }
  }

  /** Attempts for one address leave the record of every other address as it was. */
  lemma {:induction false} ReplayIsolatesAddresses(records: Records, spP2pAddress: string, attempts: seq<Attempt>, cfg: BackoffConfig, other: string)
    requires other != spP2pAddress
    ensures var r := Replay(records, spP2pAddress, attempts, cfg);
      (other in r <==> other in records) && (other in records ==> r[other] == records[other])
    decreases |attempts|
  {
    if |attempts| > 0 {
      var d := RecordSpMaintenance(records, spP2pAddress, attempts[0].recordTime, attempts[0].now, cfg);
      ReplayIsolatesAddresses(d.records, spP2pAddress, attempts[1..], cfg, other);
    }
  }

  /**
   * Minimum 30 s, multiplier 2, maximum 600 s: the first failure stores 30 s,
   * an attempt 10 s later is refused, one at 31 s is allowed and doubles the
   * interval, and attempts just past each window go on 120, 240, 480, 600, 600.
   */
  lemma BackoffExample()
    ensures var cfg := BackoffConfig(30, 600, 2);
      var a := "sp";
      var d0 := RecordSpMaintenance(map[], a, Seconds(0), Seconds(0), cfg);
      var d1 := RecordSpMaintenance(d0.records, a, Seconds(10), Seconds(10), cfg);
      var d2 := RecordSpMaintenance(d1.records, a, Seconds(31), Seconds(31), cfg);
      var d3 := RecordSpMaintenance(d2.records, a, Seconds(92), Seconds(92), cfg);
      var d4 := RecordSpMaintenance(d3.records, a, Seconds(213), Seconds(213), cfg);
      var d5 := RecordSpMaintenance(d4.records, a, Seconds(454), Seconds(454), cfg);
      var d6 := RecordSpMaintenance(d5.records, a, Seconds(935), Seconds(935), cfg);
      var d7 := RecordSpMaintenance(d6.records, a, Seconds(1536), Seconds(1536), cfg);
      && d0.allowed && d0.records[a].nextAllowableReconnectInSec == 30
      && !d1.allowed && d1.records == d0.records
      && d2.allowed && d2.records[a].nextAllowableReconnectInSec == 60
      && d3.allowed && d3.records[a].nextAllowableReconnectInSec == 120
      && d4.allowed && d4.records[a].nextAllowableReconnectInSec == 240
      && d5.allowed && d5.records[a].nextAllowableReconnectInSec == 480
      && d6.allowed && d6.records[a].nextAllowableReconnectInSec == 600
      && d7.allowed && d7.records[a].nextAllowableReconnectInSec == 600
  {
  }

  /** An attempt exactly when the window closes is refused. */
  lemma BoundaryAttemptRefused(records: Records, spP2pAddress: string, recordTime: int, cfg: BackoffConfig)
    requires spP2pAddress in records
    ensures var rec := records[spP2pAddress];
      var d := RecordSpMaintenance(records, spP2pAddress, recordTime, rec.time + Seconds(rec.nextAllowableReconnectInSec), cfg);
      !d.allowed && d.records == records
  {
  }
}

=== FILE: conn_cache.dfy ===
/**
 * Session-scoped connection cache. Keys start with the file hash of the
 * transfer they serve, so one transfer's connections can be evicted together.
 */
module ConnCache {
  import opened Wrappers
  import opened Connections
  import opened Enumeration

  type CachedConns = map<string, ClientConn>

  function StoreConnToCache(m: CachedConns, key: string, conn: ClientConn): (r: CachedConns)
    ensures r.Keys == m.Keys + {key} && r[key] == conn
    ensures forall k :: k in m && k != key ==> r[k] == m[k]
  {
    m[key := conn]
  }

  function LoadConnFromCache(m: CachedConns, key: string): (r: Option<ClientConn>)
    ensures r.Some? <==> key in m
    ensures r.Some? ==> r.value == m[key]
  {
    if key in m then Some(m[key]) else None
  }

  function DeleteConnFromCache(m: CachedConns, key: string): (r: CachedConns)
    ensures r.Keys == m.Keys - {key}
    ensures forall k :: k in r ==> r[k] == m[k]
  {
    m - {key}
  }

  /** A stored connection is loaded back until its key is deleted. */
  lemma StoreLoadDelete(m: CachedConns, key: string, other: string, conn: ClientConn)
    requires other != key
    ensures LoadConnFromCache(StoreConnToCache(m, key, conn), key) == Some(conn)
    ensures LoadConnFromCache(DeleteConnFromCache(m, key), key) == None
    ensures LoadConnFromCache(StoreConnToCache(m, key, conn), other) == LoadConnFromCache(m, other)
  {
  }

  /**
   * Evict every cached connection whose key starts with `fileHash`, visiting
   * the entries in whatever order the map yields them.
   */
  method CleanUpConnMap(m: CachedConns, fileHash: string) returns (r: CachedConns)
    ensures forall k :: k in r <==> k in m && !(fileHash <= k)
    ensures forall k :: k in r ==> r[k] == m[k]
  {
    r := m;
    var rest := m.Keys;
    while rest != {}
      invariant rest <= m.Keys
      invariant forall k :: k in r <==> k in m && (k in rest || !(fileHash <= k))
      invariant forall k :: k in r ==> r[k] == m[k]
      decreases |rest|
    {
      var k :| k in rest;
      if fileHash <= k {
        r := DeleteConnFromCache(r, k);
      }
      rest := rest - {k};
    }
  }

  /** Keys a full Range in `order` hands to `rf`: it stops right after the first call returning false. */
  function RangeVisits(m: CachedConns, order: seq<string>, rf: (string, ClientConn) -> bool): (vs: seq<string>)
    requires forall k :: k in order ==> k in m
    ensures |vs| <= |order|
    ensures forall k :: k in vs ==> k in order
  {
    if |order| == 0 then []
    else if rf(order[0], m[order[0]]) then [order[0]] + RangeVisits(m, order[1..], rf)
    else [order[0]]
  }

  /** Keys a prefix-filtered Range hands to `rf`: other keys are skipped without calling it. */
  function PrefixRangeVisits(m: CachedConns, order: seq<string>, prefix: string, rf: (string, ClientConn) -> bool): (vs: seq<string>)
    requires forall k :: k in order ==> k in m
    ensures forall k :: k in vs ==> k in order && prefix <= k
  {
    if |order| == 0 then []
    else if !(prefix <= order[0]) then PrefixRangeVisits(m, order[1..], prefix, rf)
    else if rf(order[0], m[order[0]]) then [order[0]] + PrefixRangeVisits(m, order[1..], prefix, rf)
    else [order[0]]
  }

  /**
   * RangeCachedConn: a prefix-filtered pass followed by a full pass, each in an
   * iteration order of its own; returns the keys `rf` is called on, in order.
   */
  function RangeCachedConn(m: CachedConns, prefix: string, firstOrder: seq<string>, secondOrder: seq<string>,
                           rf: (string, ClientConn) -> bool): (vs: seq<string>)
    requires forall k :: k in firstOrder ==> k in m
    requires forall k :: k in secondOrder ==> k in m
    ensures forall k :: k in vs ==> k in m
  {
    PrefixRangeVisits(m, firstOrder, prefix, rf) + RangeVisits(m, secondOrder, rf)
  }

  /** `rf` never asks to stop on any cached entry. */
  ghost predicate NeverStops(m: CachedConns, rf: (string, ClientConn) -> bool) {
    forall k :: k in m ==> rf(k, m[k])
  }

  lemma {:induction false} FullRangeVisitsAll(m: CachedConns, order: seq<string>, rf: (string, ClientConn) -> bool)
    requires forall k :: k in order ==> k in m
    requires NeverStops(m, rf)
    ensures RangeVisits(m, order, rf) == order
  {
    if |order| > 0 {
      FullRangeVisitsAll(m, order[1..], rf);
    }
  }

  /** With distinct keys, each key is visited by the prefix pass once if it matches, else never. */
  lemma {:induction false} PrefixRangeCounts(m: CachedConns, order: seq<string>, prefix: string, rf: (string, ClientConn) -> bool)
    requires forall k :: k in order ==> k in m
    requires forall i, j :: 0 <= i < j < |order| ==> order[i] != order[j]
    requires NeverStops(m, rf)
    ensures forall k :: multiset(PrefixRangeVisits(m, order, prefix, rf))[k] == if k in order && prefix <= k then 1 else 0
  {
    if |order| > 0 {
      var tail := order[1..];
      PrefixRangeCounts(m, tail, prefix, rf);
      assert order[0] !in tail by {
        forall j | 0 <= j < |tail| ensures tail[j] != order[0] {
          assert tail[j] == order[j + 1];
        }
      }
      assert forall k :: k in order <==> k == order[0] || k in tail;
    }
  }

  /**
   * When `rf` never asks to stop, RangeCachedConn calls it twice on every entry
   * whose key has the prefix and once on every other entry.
   */
  lemma RangeCachedConnVisitCounts(m: CachedConns, prefix: string, firstOrder: seq<string>, secondOrder: seq<string>,
                                   rf: (string, ClientConn) -> bool)
    requires EnumeratesKeys(firstOrder, m) && EnumeratesKeys(secondOrder, m)
    requires NeverStops(m, rf)
    ensures forall k :: multiset(RangeCachedConn(m, prefix, firstOrder, secondOrder, rf))[k]
                        == (if k !in m then 0 else if prefix <= k then 2 else 1)
  {
    PrefixRangeCounts(m, firstOrder, prefix, rf);
    FullRangeVisitsAll(m, secondOrder, rf);
    DistinctMultiset(secondOrder);
  }
}

=== FILE: connections.dfy ===
/**
 * Outbound client connections of a resource node: the pool keyed by server
 * address, the single main indexing-server slot, and the bounded, lossy
 * channel of offline events raised when a connection closes.
 */
module Connections {
  import opened Wrappers

  /** Options a client connection is created with (the ones that vary between call sites). */
  datatype ConnOptions = ConnOptions(reconnect: bool, heartClose: bool, serverPort: nat)

  /** What the transport hands back for a new connection: an identity, a name and the remote address. */
  datatype TransportHandle = TransportHandle(id: nat, name: string, remoteAddr: string)

  datatype ClientConn = ClientConn(handle: TransportHandle, server: string, options: ConnOptions) {
    function Name(): string {
      handle.name
    }
  }

  /** Event raised when a connection closes; `isSp` marks the loss of the main indexing-server link. */
  datatype Offline = Offline(isSp: bool, networkAddress: string)

  datatype P2pClients = P2pClients(connMap: map<string, ClientConn>, mainSpConn: Option<ClientConn>, offlineChan: seq<Offline>)

  /** Capacity of the offline-event channel. */
  const OFFLINE_CHAN_CAPACITY: nat := 2

  const MAX_PORT: nat := 65535

  const INVALID_SP_NAME: string := "{NA} Invalid SpConn"

  /**
   * A fresh client registry: no connections and nothing queued. The Go
   * initializer does not assign the main link; it is `None` here because the
   * zero value of that pointer field is nil.
   */
  function InitClient(): (p: P2pClients)
    ensures p.connMap == map[] && p.mainSpConn.None? && p.offlineChan == []
  {
    P2pClients(map[], None, [])
  }

  predicate ChanBounded(p: P2pClients) {
    |p.offlineChan| <= OFFLINE_CHAN_CAPACITY
  }

  predicate IsDigit(c: char) {
    '0' <= c <= '9'
  }

  /** Value of a string of decimal digits. */
  function DecimalValue(s: string): nat
    requires forall i :: 0 <= i < |s| ==> IsDigit(s[i])
  {
    if |s| == 0 then 0
    else
      assert IsDigit(s[|s| - 1]);
      DecimalValue(s[..|s| - 1]) * 10 + (s[|s| - 1] as int - '0' as int)
  }

  /** Decimal text of `n`, without leading zeros. */
  function DecimalString(n: nat): (s: string)
    ensures |s| > 0 && forall i :: 0 <= i < |s| ==> IsDigit(s[i])
  {
    if n < 10 then [('0' as int + n) as char] else DecimalString(n / 10) + [('0' as int + n % 10) as char]
  }

  lemma {:induction false} DecimalRoundTrip(n: nat)
    ensures DecimalValue(DecimalString(n)) == n
  {
    var s := DecimalString(n);
    if n >= 10 {
      DecimalRoundTrip(n / 10);
      assert s[..|s| - 1] == DecimalString(n / 10);
    }
  }

  /** `strconv.ParseUint(s, 10, 16)`: a non-empty run of decimal digits whose value fits in 16 bits. */
  function ParsePort(s: string): (r: Option<nat>)
    ensures r.Some? <==> |s| > 0 && (forall i :: 0 <= i < |s| ==> IsDigit(s[i])) && DecimalValue(s) <= MAX_PORT
    ensures r.Some? ==> r.value == DecimalValue(s) && r.value <= MAX_PORT
  {
    if |s| > 0 && (forall i :: 0 <= i < |s| ==> IsDigit(s[i])) && DecimalValue(s) <= MAX_PORT
    then Some(DecimalValue(s)) else None
  }

  /** Every port number written in decimal parses back to itself. */
  lemma PortRoundTrip(port: nat)
    requires port <= MAX_PORT
    ensures ParsePort(DecimalString(port)) == Some(port)
  {
    DecimalRoundTrip(port);
  }

  datatype NewClientError = InvalidPort(config: string)

  /**
   * Create and register a client connection to `server`. A bad configured port
   * is reported before anything is created. For an indexing-server connection
   * the main slot is filled before the connection is started, so a fast
   * response never finds it empty.
   */
  function NewClient(p: P2pClients, server: string, heartbeat: bool, reconnect: bool, spconn: bool,
                     handle: TransportHandle, portConfig: string): (r: (Result<ClientConn, NewClientError>, P2pClients))
    ensures ParsePort(portConfig).None? ==> r.0 == Failure(InvalidPort(portConfig)) && r.1 == p
    ensures ParsePort(portConfig).Some? ==> r.0.Success?
    ensures r.0.Success? ==>
      var c := r.0.value;
      && c.handle == handle && c.server == server
      && c.options == ConnOptions(reconnect, !heartbeat, ParsePort(portConfig).value)
      && r.1.connMap == p.connMap[server := c]
      && r.1.mainSpConn == (if spconn then Some(c) else p.mainSpConn)
      && r.1.offlineChan == p.offlineChan
  {
    match ParsePort(portConfig)
    case None => (Failure(InvalidPort(portConfig)), p)
    case Some(port) =>
      var conn := ClientConn(handle, server, ConnOptions(reconnect, !heartbeat, port));
      var withMain := if spconn then p.(mainSpConn := Some(conn)) else p;
      (Success(conn), withMain.(connMap := withMain.connMap[server := conn]))
  }

  /** Connection to the main indexing server: heartbeat on, automatic reconnect off. */
  function NewClientToMainSp(p: P2pClients, server: string, handle: TransportHandle, portConfig: string): (r: (Result<ClientConn, NewClientError>, P2pClients))
    ensures r.0.Success? ==> r.0.value.options.reconnect == false && r.0.value.options.heartClose == false
    ensures r.0.Success? ==> r.1.mainSpConn == Some(r.0.value)
  {
    NewClient(p, server, true, false, true, handle, portConfig)
  }

  /** Connection to an alternative indexing server: no heartbeat, no reconnect, main slot untouched. */
  function NewClientToAlternativeSp(p: P2pClients, server: string, handle: TransportHandle, portConfig: string): (r: (Result<ClientConn, NewClientError>, P2pClients))
    ensures r.0.Success? ==> r.0.value.options.reconnect == false && r.0.value.options.heartClose == true
    ensures r.1.mainSpConn == p.mainSpConn
  {
    NewClient(p, server, false, false, false, handle, portConfig)
  }

  /** Connection to a peer resource node, with or without heartbeat; main slot untouched. */
  function NewClientToPp(p: P2pClients, server: string, heartbeat: bool, handle: TransportHandle, portConfig: string): (r: (Result<ClientConn, NewClientError>, P2pClients))
    ensures r.0.Success? ==> r.0.value.options.reconnect == false && r.0.value.options.heartClose == !heartbeat
    ensures r.1.mainSpConn == p.mainSpConn
  {
    NewClient(p, server, heartbeat, false, false, handle, portConfig)
  }

  /**
   * Close-path bookkeeping for `cc`: the pool entry under the connection's name
   * goes; if the main indexing-server link has that name the slot is cleared
   * and the event says so; the event is queued only if the channel has room.
   */
  function OnClose(p: P2pClients, cc: ClientConn): (r: P2pClients)
    ensures r.connMap == p.connMap - {cc.Name()}
    ensures p.mainSpConn.Some? && p.mainSpConn.value.Name() == cc.Name() ==> r.mainSpConn.None?
    ensures !(p.mainSpConn.Some? && p.mainSpConn.value.Name() == cc.Name()) ==> r.mainSpConn == p.mainSpConn
    ensures |p.offlineChan| < OFFLINE_CHAN_CAPACITY ==>
      r.offlineChan == p.offlineChan + [Offline(p.mainSpConn.Some? && p.mainSpConn.value.Name() == cc.Name(), cc.handle.remoteAddr)]
    ensures |p.offlineChan| >= OFFLINE_CHAN_CAPACITY ==> r.offlineChan == p.offlineChan
    ensures ChanBounded(p) ==> ChanBounded(r)
  {
    var pool := p.connMap - {cc.Name()};
    var lostSp := p.mainSpConn.Some? && p.mainSpConn.value.Name() == cc.Name();
    var event := Offline(lostSp, cc.handle.remoteAddr);
    var main := if lostSp then None else p.mainSpConn;
    var chan := if |p.offlineChan| < OFFLINE_CHAN_CAPACITY then p.offlineChan + [event] else p.offlineChan;
    P2pClients(pool, main, chan)
  }

  /**
   * Receive the oldest pending offline event. A Go receive on the empty
   * channel blocks until an event arrives; the model answers `None` instead
   * and leaves the registry unchanged.
   */
  function ReadOffline(p: P2pClients): (r: (Option<Offline>, P2pClients))
    ensures |p.offlineChan| == 0 ==> r.0.None? && r.1 == p
    ensures |p.offlineChan| > 0 ==> r.0 == Some(p.offlineChan[0]) && r.1 == p.(offlineChan := p.offlineChan[1..])
  {
    if |p.offlineChan| == 0 then (None, p) else (Some(p.offlineChan[0]), p.(offlineChan := p.offlineChan[1..]))
  }

  function GetClientConn(p: P2pClients, networkAddr: string): (r: Option<ClientConn>)
    ensures r.Some? <==> networkAddr in p.connMap
    ensures r.Some? ==> r.value == p.connMap[networkAddr]
  {
    if networkAddr in p.connMap then Some(p.connMap[networkAddr]) else None
  }

  /** The main indexing-server link is usable exactly when the main slot holds a connection. */
  function SpConnValid(p: P2pClients): (valid: bool)
    ensures valid <==> p.mainSpConn.Some?
  {
    p.mainSpConn.Some?
  }

  function GetSpName(p: P2pClients): (name: string)
    ensures SpConnValid(p) ==> name == p.mainSpConn.value.Name()
    ensures !SpConnValid(p) ==> name == INVALID_SP_NAME
  {
    if SpConnValid(p) then p.mainSpConn.value.Name() else INVALID_SP_NAME
  }

  /**
   * Losing the main indexing-server link right after registering it empties the
   * slot and, when the channel has room, queues exactly one event marked as an
   * indexing-server loss.
   */
  lemma MainSpLossRaisesOneEvent(p: P2pClients, server: string, handle: TransportHandle, portConfig: string)
    requires ParsePort(portConfig).Some?
    ensures var (c, q) := NewClientToMainSp(p, server, handle, portConfig);
      var closed := OnClose(q, c.value);
      && closed.mainSpConn.None?
      && !SpConnValid(closed)
      && (|p.offlineChan| < OFFLINE_CHAN_CAPACITY ==>
            closed.offlineChan == p.offlineChan + [Offline(true, handle.remoteAddr)])
      && (|p.offlineChan| >= OFFLINE_CHAN_CAPACITY ==> closed.offlineChan == p.offlineChan)
  {
  }

  /**
   * The pool entry is inserted under the server address but removed under the
   * connection's name: closing removes the registration exactly when the two
   * coincide, and otherwise leaves the entry behind.
   */
  lemma CloseRemovesRegistrationOnlyByName(p: P2pClients, server: string, heartbeat: bool, handle: TransportHandle, portConfig: string)
    requires ParsePort(portConfig).Some?
    ensures var (c, q) := NewClientToPp(p, server, heartbeat, handle, portConfig);
      var closed := OnClose(q, c.value);
      (server in closed.connMap <==> handle.name != server)
  {
  }

  /** Closing a connection that is not the main link leaves the main link in place. */
  lemma PeerCloseKeepsMainSp(p: P2pClients, cc: ClientConn)
    requires p.mainSpConn.Some? && p.mainSpConn.value.Name() != cc.Name()
    ensures OnClose(p, cc).mainSpConn == p.mainSpConn
    ensures |p.offlineChan| < OFFLINE_CHAN_CAPACITY ==> !OnClose(p, cc).offlineChan[|p.offlineChan|].isSp
  {
  }

  /**
   * The main link is valid from the moment the main indexing server is
   * registered until that same connection closes; its name is reported in
   * between and the invalid marker afterwards.
   */
  lemma MainSpValidUntilClosed(p: P2pClients, server: string, handle: TransportHandle, portConfig: string)
    requires ParsePort(portConfig).Some?
    ensures var (c, q) := NewClientToMainSp(p, server, handle, portConfig);
      && SpConnValid(q) && GetSpName(q) == handle.name
      && !SpConnValid(OnClose(q, c.value)) && GetSpName(OnClose(q, c.value)) == INVALID_SP_NAME
  {
  }
}

=== FILE: download_report.dfy ===
/**
 * Download-result reports sent to the indexing server after a slice was served:
 * one for a slice fetched over the network, one for a slice found locally.
 */
module DownloadReport {
  import opened Wrappers
  import opened Messages

  datatype ReqReportDownloadResult = ReqReportDownloadResult(
    downloaderP2PAddress: string,
    walletAddress: string,
    ppP2PAddress: string,
    ppWalletAddress: string,
    fileHash: string,
    taskId: string,
    spP2PAddress: string,
    costTime: int,
    beneficiaryAddress: string,
    isFoundLocally: bool,
    sliceInfo: Option<DownloadSliceInfo>,
    opponentP2PAddress: string)

  /** A report together with the download-task registry after the report was built. */
  datatype ReportStep = ReportStep(report: ReqReportDownloadResult, tasks: map<string, DownloadTask>)

  /** Download tasks are stored per file and per wallet. */
  function DownloadTaskKey(fileHash: string, walletAddress: string): string {
    JoinKey(fileHash, walletAddress)
  }

  /** One file downloaded by two wallets is tracked as two separate tasks. */
  lemma TaskKeysSeparateWallets(fileHash: string, walletA: string, walletB: string)
    requires walletA != walletB
    ensures DownloadTaskKey(fileHash, walletA) != DownloadTaskKey(fileHash, walletB)
  {
  }

  /** The slice entry a report carries when the task's own table is not consulted. */
  function BareSliceInfo(sliceNumber: nat, sliceHash: string, sliceSize: nat): (info: DownloadSliceInfo)
    ensures info.sliceNumber == sliceNumber && info.sliceHash == sliceHash && info.sliceSize == sliceSize
    ensures info.taskId == "" && info.storagePpP2PAddress == "" && !info.visitResult
  {
    DownloadSliceInfo(taskId := "", sliceNumber := sliceNumber, sliceHash := sliceHash, sliceSize := sliceSize,
                      storagePpP2PAddress := "", visitResult := false)
  }

  /**
   * The slice entry a report carries, and the registry afterwards. A resource
   * node that holds the download task reports the task's own entry and marks
   * it visited in the registry (assuming the task lookup hands out its stored
   * entry by pointer, so setting the flag updates the task); an
   * unknown slice yields no entry. Otherwise the bare `fallback` is reported.
   */
  function ResolveSliceInfo(tasks: map<string, DownloadTask>, key: string, sliceHash: string,
                            fallback: DownloadSliceInfo, isPP: bool): (r: (Option<DownloadSliceInfo>, map<string, DownloadTask>))
    ensures isPP && key in tasks && sliceHash in tasks[key].sliceInfo ==>
      var visited := tasks[key].sliceInfo[sliceHash].(visitResult := true);
      && r.0 == Some(visited)
      && r.1 == tasks[key := tasks[key].(sliceInfo := tasks[key].sliceInfo[sliceHash := visited])]
    ensures isPP && key in tasks && sliceHash !in tasks[key].sliceInfo ==> r.0 == None && r.1 == tasks
    ensures !isPP || key !in tasks ==> r.0 == Some(fallback) && r.1 == tasks
    ensures r.1.Keys == tasks.Keys
    ensures forall k :: k in tasks && k != key ==> r.1[k] == tasks[k]
  {
    if isPP && key in tasks then
      var task := tasks[key];
      if sliceHash in task.sliceInfo then
        var visited := task.sliceInfo[sliceHash].(visitResult := true);
        (Some(visited), tasks[key := task.(sliceInfo := task.sliceInfo[sliceHash := visited])])
      else (None, tasks)
    else (Some(fallback), tasks)
  }

  /**
   * Report for a slice received over the network. It carries the measured
   * cost time and is not marked found-locally; the counterparty is the
   * downloader when this node is the downloading resource node, else the
   * storage node.
   */
  function ReqReportDownloadResultData(local: LocalNode, target: RspDownloadSlice, costTime: int, isPP: bool,
                                       tasks: map<string, DownloadTask>): (r: ReportStep)
    ensures r.report.costTime == costTime && !r.report.isFoundLocally
    ensures r.report.opponentP2PAddress == if isPP then target.p2pAddress else target.storageP2PAddress
    ensures (r.report.sliceInfo, r.tasks) ==
      ResolveSliceInfo(tasks, DownloadTaskKey(target.fileHash, target.walletAddress), target.sliceInfo.sliceHash,
                       BareSliceInfo(target.sliceNumber, target.sliceInfo.sliceHash, target.sliceSize), isPP)
    ensures r.report.downloaderP2PAddress == target.p2pAddress && r.report.walletAddress == target.walletAddress
    ensures r.report.fileHash == target.fileHash && r.report.taskId == target.taskId
    ensures r.report.spP2PAddress == target.spP2PAddress
    ensures r.report.ppP2PAddress == local.p2pAddress && r.report.ppWalletAddress == local.walletAddress
    ensures r.report.beneficiaryAddress == local.beneficiaryAddress
  {
    var base := ReqReportDownloadResult(
      downloaderP2PAddress := target.p2pAddress,
      walletAddress := target.walletAddress,
      ppP2PAddress := local.p2pAddress,
      ppWalletAddress := local.walletAddress,
      fileHash := target.fileHash,
      taskId := target.taskId,
      spP2PAddress := target.spP2PAddress,
      costTime := costTime,
      beneficiaryAddress := local.beneficiaryAddress,
      isFoundLocally := false,
      sliceInfo := None,
      opponentP2PAddress := "");
    var bare := BareSliceInfo(target.sliceNumber, target.sliceInfo.sliceHash, target.sliceSize);
    var resolved := ResolveSliceInfo(tasks, DownloadTaskKey(target.fileHash, target.walletAddress),
                                     target.sliceInfo.sliceHash, bare, isPP);
    var opponent := if isPP then target.p2pAddress else target.storageP2PAddress;
    ReportStep(base.(sliceInfo := resolved.0, opponentP2PAddress := opponent), resolved.1)
  }

  /**
   * Report for a slice the downloader already held: no transfer happened, so
   * the cost time is 0 and the report is marked found-locally.
   */
  function ReqReportDownloadResultDataForLocallyFoundSlice(local: LocalNode, fileStorageInfo: RspFileStorageInfo,
                                                           target: DownloadSliceInfo, isPP: bool,
                                                           tasks: map<string, DownloadTask>): (r: ReportStep)
    ensures r.report.costTime == 0 && r.report.isFoundLocally
    ensures r.report.opponentP2PAddress == if isPP then fileStorageInfo.p2pAddress else target.storagePpP2PAddress
    ensures (r.report.sliceInfo, r.tasks) ==
      ResolveSliceInfo(tasks, DownloadTaskKey(fileStorageInfo.fileHash, fileStorageInfo.walletAddress), target.sliceHash,
                       BareSliceInfo(target.sliceNumber, target.sliceHash, target.sliceSize), isPP)
    ensures r.report.downloaderP2PAddress == fileStorageInfo.p2pAddress
    ensures r.report.walletAddress == fileStorageInfo.walletAddress
    ensures r.report.fileHash == fileStorageInfo.fileHash && r.report.taskId == target.taskId
    ensures r.report.spP2PAddress == fileStorageInfo.spP2PAddress
    ensures r.report.ppP2PAddress == local.p2pAddress && r.report.ppWalletAddress == local.walletAddress
    ensures r.report.beneficiaryAddress == local.beneficiaryAddress
  {
    var base := ReqReportDownloadResult(
      downloaderP2PAddress := fileStorageInfo.p2pAddress,
      walletAddress := fileStorageInfo.walletAddress,
      ppP2PAddress := local.p2pAddress,
      ppWalletAddress := local.walletAddress,
      fileHash := fileStorageInfo.fileHash,
      taskId := target.taskId,
      spP2PAddress := fileStorageInfo.spP2PAddress,
      costTime := 0,
      beneficiaryAddress := local.beneficiaryAddress,
      isFoundLocally := true,
      sliceInfo := None,
      opponentP2PAddress := "");
    var bare := BareSliceInfo(target.sliceNumber, target.sliceHash, target.sliceSize);
    var resolved := ResolveSliceInfo(tasks, DownloadTaskKey(fileStorageInfo.fileHash, fileStorageInfo.walletAddress),
                                     target.sliceHash, bare, isPP);
    var opponent := if isPP then fileStorageInfo.p2pAddress else target.storagePpP2PAddress;
    ReportStep(base.(sliceInfo := resolved.0, opponentP2PAddress := opponent), resolved.1)
  }

  /** A locally found slice seen as the network response it stands in for. */
  function AsNetworkResponse(fileStorageInfo: RspFileStorageInfo, target: DownloadSliceInfo): RspDownloadSlice {
    RspDownloadSlice(
      sliceInfo := SliceOffsetInfo(target.sliceHash, None, None),
      fileCrc := 0,
      fileHash := fileStorageInfo.fileHash,
      data := [],
      p2pAddress := fileStorageInfo.p2pAddress,
      walletAddress := fileStorageInfo.walletAddress,
      taskId := target.taskId,
      sliceSize := target.sliceSize,
      result := SUCCESS_RESULT,
      needReport := true,
      savePath := fileStorageInfo.savePath,
      spP2PAddress := fileStorageInfo.spP2PAddress,
      isEncrypted := false,
      isVideoCaching := false,
      storageP2PAddress := target.storagePpP2PAddress,
      sliceNumber := target.sliceNumber)
  }

  /**
   * The two report paths agree: a locally found slice is reported exactly like
   * a network transfer that took no time, except for the found-locally flag,
   * and both update the task registry the same way.
   */
  lemma LocalReportIsZeroCostNetworkReport(local: LocalNode, fileStorageInfo: RspFileStorageInfo, target: DownloadSliceInfo,
                                           isPP: bool, tasks: map<string, DownloadTask>)
    ensures var l := ReqReportDownloadResultDataForLocallyFoundSlice(local, fileStorageInfo, target, isPP, tasks);
      var n := ReqReportDownloadResultData(local, AsNetworkResponse(fileStorageInfo, target), 0, isPP, tasks);
      l == ReportStep(n.report.(isFoundLocally := true), n.tasks)
  {
  }

  /** Reporting the same slice again changes nothing more and repeats the same report. */
  lemma ReportTwiceSameAsOnce(local: LocalNode, target: RspDownloadSlice, costTime: int, isPP: bool,
                              tasks: map<string, DownloadTask>)
    ensures var once := ReqReportDownloadResultData(local, target, costTime, isPP, tasks);
      var twice := ReqReportDownloadResultData(local, target, costTime, isPP, once.tasks);
      twice == once
  {
    var key := DownloadTaskKey(target.fileHash, target.walletAddress);
    var h := target.sliceInfo.sliceHash;
    var once := ReqReportDownloadResultData(local, target, costTime, isPP, tasks);
    if isPP && key in tasks && h in tasks[key].sliceInfo {
      var visited := tasks[key].sliceInfo[h].(visitResult := true);
      assert once.tasks[key].sliceInfo[h] == visited;
      assert once.tasks[key].sliceInfo[h := visited] == once.tasks[key].sliceInfo;
      assert once.tasks[key := once.tasks[key].(sliceInfo := once.tasks[key].sliceInfo)] == once.tasks;
    }
  }
}

=== FILE: enumeration.dfy ===
/**
 * Iteration orders of Go maps. Go leaves the order of `range` over a map
 * unspecified, so the model speaks about every order that lists each key once.
 */
module Enumeration {
  /** `ks` lists every key of `m` exactly once. */
  ghost predicate EnumeratesKeys<V>(ks: seq<string>, m: map<string, V>) {
    && |ks| == |m|
    && (forall k :: k in m <==> k in ks)
    && forall i, j :: 0 <= i < j < |ks| ==> ks[i] != ks[j]
  }

  /** A sequence without repetitions counts each of its elements once. */
  lemma {:induction false} DistinctMultiset(ks: seq<string>)
    requires forall i, j :: 0 <= i < j < |ks| ==> ks[i] != ks[j]
    ensures forall k :: multiset(ks)[k] == if k in ks then 1 else 0
  {
    if |ks| > 0 {
      var tail := ks[1..];
      DistinctMultiset(tail);
      assert ks == [ks[0]] + tail;
      assert ks[0] !in tail;
    }
  }
}

=== FILE: find_file.dfy ===
/**
 * Listing the files of a wallet: the login gate on the outgoing request, and
 * the handling of the indexing server's answer, which decides the RPC result
 * code and projects protocol file entries into RPC file entries.
 */
module FindFile {
  import opened Wrappers
  import opened Messages
  import opened RpcCodes

  /** A file entry as the indexing server sends it. */
  datatype ProtoFileInfo = ProtoFileInfo(fileHash: string, fileSize: nat, fileName: string, createTime: nat, isDirectory: bool)

  datatype FileListReply = FileListReply(
    reqId: string,
    walletAddress: string,
    p2pAddress: string,
    result: ProtoResult,
    fileInfo: seq<ProtoFileInfo>,
    totalFileNumber: nat,
    pageId: nat)

  /** A file entry as the RPC surface returns it. */
  datatype RpcFileInfo = RpcFileInfo(
    fileHash: string, fileSize: nat, fileName: string, createTime: nat,
    linkTime: int, linkTimeExp: int, shareId: string, shareLink: string)

  datatype FileListResult = FileListResult(ret: RpcCode, fileInfo: seq<RpcFileInfo>, totalNumber: nat, pageId: nat)

  /** The stored RPC results and, for a misaddressed answer, the node it is forwarded to. */
  datatype Handled = Handled(results: map<string, FileListResult>, forwardTo: Option<string>)

  /** RPC results are stored per wallet and request id. */
  function ResultKey(walletAddress: string, reqId: string): string {
    JoinKey(walletAddress, reqId)
  }

  /** Results of one wallet's different requests never overwrite each other. */
  lemma ResultKeysSeparateRequests(walletAddress: string, reqA: string, reqB: string)
    requires reqA != reqB
    ensures ResultKey(walletAddress, reqA) != ResultKey(walletAddress, reqB)
  {
  }

  /** Hash, size, name and creation time are copied; the sharing fields stay empty. */
  function ProjectFileInfo(info: ProtoFileInfo): (r: RpcFileInfo)
    ensures r.fileHash == info.fileHash && r.fileSize == info.fileSize
    ensures r.fileName == info.fileName && r.createTime == info.createTime
    ensures r.linkTime == 0 && r.linkTimeExp == 0 && r.shareId == "" && r.shareLink == ""
  {
    RpcFileInfo(info.fileHash, info.fileSize, info.fileName, info.createTime, 0, 0, "", "")
  }

  /** Entry-by-entry projection, keeping length and order. */
  function ProjectFileList(infos: seq<ProtoFileInfo>): (r: seq<RpcFileInfo>)
    ensures |r| == |infos|
    ensures forall i :: 0 <= i < |infos| ==> r[i] == ProjectFileInfo(infos[i])
  {
    if |infos| == 0 then [] else [ProjectFileInfo(infos[0])] + ProjectFileList(infos[1..])
  }

  /** Directories are listed exactly like files. */
  lemma DirectoriesProjectLikeFiles(info: ProtoFileInfo)
    ensures ProjectFileInfo(info.(isDirectory := !info.isDirectory)) == ProjectFileInfo(info)
  {
  }

  /**
   * The RPC result for a decoded answer, and where to forward it. An answer
   * meant for another node is forwarded there, whatever its result state; a
   * failed answer is a communication failure; otherwise the list is projected.
   */
  function FileListResultFor(target: FileListReply, localP2PAddress: string): (r: (FileListResult, Option<string>))
    ensures r.1.Some? <==> target.p2pAddress != localP2PAddress
    ensures r.1.Some? ==> r.1.value == target.p2pAddress && r.0 == FileListResult(WrongPpAddress, [], 0, 0)
    ensures r.1.None? && target.result.state != ResSuccess ==> r.0 == FileListResult(InternalCommFailure, [], 0, 0)
    ensures r.1.None? && target.result.state == ResSuccess ==>
      && r.0.ret == RpcCode.Success
      && r.0.totalNumber == target.totalFileNumber && r.0.pageId == target.pageId
      && |r.0.fileInfo| == |target.fileInfo|
      && forall i :: 0 <= i < |target.fileInfo| ==> r.0.fileInfo[i] == ProjectFileInfo(target.fileInfo[i])
  {
    var empty := FileListResult(RpcCode.Success, [], 0, 0);
    if target.p2pAddress != localP2PAddress then
      (empty.(ret := WrongPpAddress), Some(target.p2pAddress))
    else if target.result.state != ResSuccess then
      (empty.(ret := InternalCommFailure), None)
    else if |target.fileInfo| == 0 then
      (empty.(totalNumber := target.totalFileNumber, pageId := target.pageId), None)
    else
      (FileListResult(RpcCode.Success, ProjectFileList(target.fileInfo), target.totalFileNumber, target.pageId), None)
  }

  /**
   * Handle the indexing server's answer to a file-list request. An answer that
   * cannot be decoded is dropped: nothing is stored or forwarded and the RPC
   * client times out. A result is stored only when the answer carries a request
   * id.
   */
  function RspFindMyFileList(decoded: Option<FileListReply>, localP2PAddress: string,
                                    results: map<string, FileListResult>): (h: Handled)
    ensures decoded.None? ==> h == Handled(results, None)
    ensures decoded.Some? ==> h.forwardTo == FileListResultFor(decoded.value, localP2PAddress).1
    ensures decoded.Some? && decoded.value.reqId == "" ==> h.results == results
    ensures decoded.Some? && decoded.value.reqId != "" ==>
      h.results == results[ResultKey(decoded.value.walletAddress, decoded.value.reqId) := FileListResultFor(decoded.value, localP2PAddress).0]
  {
    match decoded
    case None => Handled(results, None)
    case Some(target) =>
      var (res, forward) := FileListResultFor(target, localP2PAddress);
      var stored := if target.reqId != "" then results[ResultKey(target.walletAddress, target.reqId) := res] else results;
      Handled(stored, forward)
  }

  /** An empty list is reported like any other successful list: SUCCESS with the totals and no entries. */
  lemma EmptyListIsSuccess(target: FileListReply, localP2PAddress: string)
    requires target.p2pAddress == localP2PAddress && target.result.state == ResSuccess && |target.fileInfo| == 0
    ensures FileListResultFor(target, localP2PAddress).0 == FileListResult(RpcCode.Success, [], target.totalFileNumber, target.pageId)
  {
  }

  /** The arguments of a file-list query from the RPC surface. */
  datatype FileListQuery = FileListQuery(
    fileName: string, walletAddr: string, pageId: nat, reqId: string, keyword: string, fileType: int, isUp: bool)

  datatype FindFileListAction = SendToSp(query: FileListQuery) | AnswerNotLoggedIn

  /** Handle to the HTTP response writer awaiting the result. */
  type ResponseWriter = nat

  /**
   * Query the file list: only a logged-in node sends the query and keeps the
   * response writer under the request id; otherwise it answers "not logged in"
   * and sends nothing.
   */
  function FindFileList(loggedIn: bool, query: FileListQuery, w: ResponseWriter,
                        writers: map<string, ResponseWriter>): (r: (FindFileListAction, map<string, ResponseWriter>))
    ensures r.0.SendToSp? <==> loggedIn
    ensures loggedIn ==> r.0.query == query && r.1 == writers[query.reqId := w]
    ensures !loggedIn ==> r.0 == AnswerNotLoggedIn && r.1 == writers
  {
    if loggedIn then (SendToSp(query), writers[query.reqId := w]) else (AnswerNotLoggedIn, writers)
  }

  /**
   * Queries with different request ids keep separate response writers: a
   * later query never overwrites the writer an earlier one is waiting on, and
   * a refused query stores nothing.
   */
  lemma QueriesKeepSeparateWriters(a: FileListQuery, b: FileListQuery, wa: ResponseWriter, wb: ResponseWriter,
                                   loggedIn: bool, writers: map<string, ResponseWriter>)
    requires a.reqId != b.reqId
    ensures var afterA := FindFileList(true, a, wa, writers).1;
      var afterB := FindFileList(loggedIn, b, wb, afterA).1;
      && afterB[a.reqId] == wa
      && (loggedIn ==> afterB[b.reqId] == wb && afterB.Keys == afterA.Keys + {b.reqId})
      && (!loggedIn ==> afterB == afterA)
  {
  }
}

=== FILE: hex.dfy ===
/** Hexadecimal text as decoded by Go's `encoding/hex` (either letter case accepted). */
module Hex {
  import opened Wrappers
  import opened Uint

  predicate IsHexChar(c: char) {
    '0' <= c <= '9' || 'a' <= c <= 'f' || 'A' <= c <= 'F'
  }

  function HexValue(c: char): (v: nat)
    requires IsHexChar(c)
    ensures v < 16
  {
    if '0' <= c <= '9' then c as int - '0' as int
    else if 'a' <= c <= 'f' then c as int - 'a' as int + 10
    else c as int - 'A' as int + 10
  }

  /** Lower-case hex digit, as Go's encoder writes it. */
  function HexDigit(v: nat): (c: char)
    requires v < 16
    ensures IsHexChar(c) && HexValue(c) == v
  {
    if v < 10 then ('0' as int + v) as char else ('a' as int + v - 10) as char
  }

  function PairValue(hi: char, lo: char): uint8
    requires IsHexChar(hi) && IsHexChar(lo)
  {
    (HexValue(hi) * 16 + HexValue(lo)) as uint8
  }

  /**
   * `hex.DecodeString`: succeeds exactly on even-length strings of hex digits,
   * each pair of digits giving one byte, high digit first.
   */
  function DecodeString(s: string): (r: Option<Bytes>)
    ensures r.Some? <==> |s| % 2 == 0 && forall i :: 0 <= i < |s| ==> IsHexChar(s[i])
    ensures r.Some? ==> |r.value| * 2 == |s|
    ensures r.Some? ==> forall i :: 0 <= i < |r.value| ==> r.value[i] == PairValue(s[2 * i], s[2 * i + 1])
    decreases |s|
  {
    if |s| == 0 then Some([])
    else if |s| == 1 || !IsHexChar(s[0]) || !IsHexChar(s[1]) then None
    else
      match DecodeString(s[2..])
      case None => None
      case Some(rest) => Some([PairValue(s[0], s[1])] + rest)
  }

  /** `hex.EncodeToString`: two lower-case digits per byte. */
  function EncodeToString(b: Bytes): (s: string)
    ensures |s| == 2 * |b|
    ensures forall i :: 0 <= i < |s| ==> IsHexChar(s[i])
  {
    if |b| == 0 then []
    else [HexDigit(b[0] as nat / 16), HexDigit(b[0] as nat % 16)] + EncodeToString(b[1..])
  }

  /** Decoding undoes encoding. */
  lemma {:induction false} DecodeEncode(b: Bytes)
    ensures DecodeString(EncodeToString(b)) == Some(b)
  {
    if |b| > 0 {
      var s := EncodeToString(b);
      assert s[2..] == EncodeToString(b[1..]);
      DecodeEncode(b[1..]);
      assert PairValue(s[0], s[1]) == b[0];
      assert b == [b[0]] + b[1..];
    }
  }
}

=== FILE: messages.dfy ===
/**
 * Protocol message shapes read or written by the resource node's request builders.
 * Only the fields the modelled code touches are kept; protobuf pointers that the
 * code may leave nil are `Option`s.
 */
module Messages {
  import opened Wrappers
  import opened Uint

  /** A half-open byte range `[start, end)` inside a file or a slice. */
  datatype SliceOffset = SliceOffset(start: int, end: int)

  function Length(r: SliceOffset): int {
    r.end - r.start
  }

  datatype ResultState = ResSuccess | ResFailed

  /** The protobuf `Result` carried by every response. */
  datatype ProtoResult = ProtoResult(state: ResultState, msg: string)

  const SUCCESS_RESULT: ProtoResult := ProtoResult(ResSuccess, "")

  /** Network identity of a resource node. */
  datatype PPBaseInfo = PPBaseInfo(p2pAddress: string, walletAddress: string, networkAddress: string)

  /** One entry of a file's slice plan. */
  datatype SliceHashAddr = SliceHashAddr(sliceHash: string, sliceSize: nat, sliceNumber: nat, sliceOffset: SliceOffset)

  datatype SignatureType = WalletSignature

  datatype Signature = Signature(address: string, pubkey: Bytes, signature: Bytes, sigType: SignatureType)

  /** Offsets of one (fragment of a) slice: raw, and wire/encrypted, both optional in the protocol. */
  datatype SliceOffsetInfo = SliceOffsetInfo(
    sliceHash: string,
    sliceOffset: Option<SliceOffset>,
    encryptedSliceOffset: Option<SliceOffset>)

  /** A storage node's response to a slice download request, or one fragment of it. */
  datatype RspDownloadSlice = RspDownloadSlice(
    sliceInfo: SliceOffsetInfo,
    fileCrc: nat,
    fileHash: string,
    data: Bytes,
    p2pAddress: string,
    walletAddress: string,
    taskId: string,
    sliceSize: nat,
    result: ProtoResult,
    needReport: bool,
    savePath: string,
    spP2PAddress: string,
    isEncrypted: bool,
    isVideoCaching: bool,
    storageP2PAddress: string,
    sliceNumber: nat)

  /** Per-slice entry of a download task as handed out by the indexing server. */
  datatype DownloadSliceInfo = DownloadSliceInfo(
    taskId: string,
    sliceNumber: nat,
    sliceHash: string,
    sliceSize: nat,
    storagePpP2PAddress: string,
    visitResult: bool)

  /** The indexing server's answer to a file-storage-info lookup (the fields the reports read). */
  datatype RspFileStorageInfo = RspFileStorageInfo(
    p2pAddress: string,
    walletAddress: string,
    fileHash: string,
    savePath: string,
    spP2PAddress: string)

  /**
   * The part of a download task that the request builders read: its id, the
   * per-slice lookup table, the failed slices (a Go `map[string]bool`) and the
   * failed peers (a Go `map[string]*PPBaseInfo`).
   */
  datatype DownloadTask = DownloadTask(
    taskId: string,
    sliceInfo: map<string, DownloadSliceInfo>,
    failedSlice: map<string, bool>,
    failedPPNodes: map<string, PPBaseInfo>)

  /** Identity of the local node: the values the source reads from its server object and settings. */
  datatype LocalNode = LocalNode(
    p2pAddress: string,
    walletAddress: string,
    beneficiaryAddress: string,
    ppInfo: PPBaseInfo)

  /** Registries key entries by two strings written one after the other. */
  function JoinKey(first: string, second: string): (key: string)
    ensures |key| == |first| + |second|
    ensures key[..|first|] == first && key[|first|..] == second
  {
    first + second
  }

  /** Keys whose first parts have the same length determine both parts. */
  lemma JoinKeyInjective(firstA: string, secondA: string, firstB: string, secondB: string)
    requires |firstA| == |firstB| && JoinKey(firstA, secondA) == JoinKey(firstB, secondB)
    ensures firstA == firstB && secondA == secondB
  {
  }

  /** Without a fixed split point a key is ambiguous: different pairs can join to the same key. */
  lemma JoinKeyAmbiguousExample()
    ensures JoinKey("a", "bc") == JoinKey("ab", "c")
  {
  }
}

=== FILE: rpc_codes.dfy ===
/** Result codes of the RPC surface and their stable string values on the wire. */
module RpcCodes {
  import opened Wrappers

  datatype RpcCode =
    | GenericErr | SignatureFailure | WrongFileSize | TimeOut | FileReqFailure | WrongInput
    | WrongPpAddress | InternalDataFailure | InternalCommFailure | WrongFileInfo | WrongWalletAddress
    | UploadData | DownloadOk | DlOkAskInfo | SharedDlStart | Success

  /** The failure codes; every other code reports success or progress. */
  predicate IsFailure(c: RpcCode) {
    || c.GenericErr? || c.SignatureFailure? || c.WrongFileSize? || c.TimeOut? || c.FileReqFailure?
    || c.WrongInput? || c.WrongPpAddress? || c.InternalDataFailure? || c.InternalCommFailure?
    || c.WrongFileInfo? || c.WrongWalletAddress?
  }

  /** The wire value of a code: failures are negative, success is zero, progress is positive. */
  function Wire(c: RpcCode): (w: string)
    ensures |w| > 0
    ensures w[0] == '-' <==> IsFailure(c)
    ensures w == "0" <==> c == RpcCode.Success
  {
    match c
    case GenericErr => "-1"
    case SignatureFailure => "-3"
    case WrongFileSize => "-4"
    case TimeOut => "-5"
    case FileReqFailure => "-6"
    case WrongInput => "-7"
    case WrongPpAddress => "-8"
    case InternalDataFailure => "-9"
    case InternalCommFailure => "-10"
    case WrongFileInfo => "-11"
    case WrongWalletAddress => "-12"
    case UploadData => "1"
    case DownloadOk => "2"
    case DlOkAskInfo => "3"
    case SharedDlStart => "4"
    case Success => "0"
  }

  /** The code a wire value stands for, if any: the inverse of the table, used to prove it injective. */
  function FromWire(s: string): (r: Option<RpcCode>)
    ensures r.Some? ==> Wire(r.value) == s
  {
    if s == "-1" then Some(GenericErr)
    else if s == "-3" then Some(SignatureFailure)
    else if s == "-4" then Some(WrongFileSize)
    else if s == "-5" then Some(TimeOut)
    else if s == "-6" then Some(FileReqFailure)
    else if s == "-7" then Some(WrongInput)
    else if s == "-8" then Some(WrongPpAddress)
    else if s == "-9" then Some(InternalDataFailure)
    else if s == "-10" then Some(InternalCommFailure)
    else if s == "-11" then Some(WrongFileInfo)
    else if s == "-12" then Some(WrongWalletAddress)
    else if s == "1" then Some(UploadData)
    else if s == "2" then Some(DownloadOk)
    else if s == "3" then Some(DlOkAskInfo)
    else if s == "4" then Some(SharedDlStart)
    else if s == "0" then Some(RpcCode.Success)
    else None
  }

  /** Every code survives the trip to the wire and back, so no two codes share a wire value. */
  lemma WireRoundTrip(c: RpcCode)
    ensures FromWire(Wire(c)) == Some(c)
  {
  }

  lemma WireInjective(a: RpcCode, b: RpcCode)
    requires Wire(a) == Wire(b)
    ensures a == b
  {
    WireRoundTrip(a);
    WireRoundTrip(b);
  }
}

=== FILE: slice_lookup.dfy ===
/**
 * Storage-node responses to an uploaded or backed-up slice. Both search the
 * slice plan with a Go range loop whose loop variable outlives the loop: the
 * first entry with the requested slice number is chosen, and when none matches
 * the loop variable still holds the last entry.
 */
module SliceLookup {
  import opened Wrappers
  import opened Uint
  import opened Messages

  /** The indexing server's upload (or backup) assignment as echoed in a slice request. */
  datatype RspUploadFile = RspUploadFile(taskId: string, fileHash: string, slices: seq<SliceHashAddr>, spP2PAddress: string)

  /** A slice upload (or backup) request as received by the storage node. */
  datatype ReqFileSlice = ReqFileSlice(
    assignment: RspUploadFile,
    sliceNumber: nat,
    sliceHash: string,
    data: Bytes,
    walletAddress: string,
    p2pAddress: string)

  datatype RspUploadFileSlice = RspUploadFileSlice(
    taskId: string,
    fileHash: string,
    sliceHash: string,
    p2pAddress: string,
    walletAddress: string,
    slice: Option<SliceHashAddr>,
    result: ProtoResult,
    spP2PAddress: string,
    beneficiaryAddress: string)

  datatype RspBackupFileSlice = RspBackupFileSlice(
    taskId: string,
    fileHash: string,
    sliceHash: string,
    walletAddress: string,
    slice: SliceHashAddr,
    sliceSize: int,
    result: ProtoResult,
    spP2PAddress: string)

  /** Dereferencing the nil loop variable left by an empty slice plan. */
  datatype Panic = NilSliceDereference

  /** The range loop from index `i` on: stop at a match, or run out on the last entry. */
  function ScanFrom(slices: seq<SliceHashAddr>, sliceNumber: nat, i: nat): (k: nat)
    requires i < |slices|
    ensures i <= k < |slices|
    ensures forall j :: i <= j < k ==> slices[j].sliceNumber != sliceNumber
    ensures slices[k].sliceNumber != sliceNumber ==> k == |slices| - 1
    decreases |slices| - i
  {
    if slices[i].sliceNumber == sliceNumber || i == |slices| - 1 then i
    else ScanFrom(slices, sliceNumber, i + 1)
  }

  /**
   * Index of the entry the loop variable holds after the loop: the first
   * match, else the last entry; none for an empty plan.
   */
  function PickSliceIndex(slices: seq<SliceHashAddr>, sliceNumber: nat): (k: Option<nat>)
    ensures k.None? <==> |slices| == 0
    ensures k.Some? ==> k.value < |slices|
    ensures k.Some? ==> forall j :: 0 <= j < k.value ==> slices[j].sliceNumber != sliceNumber
    ensures k.Some? && slices[k.value].sliceNumber != sliceNumber ==>
      k.value == |slices| - 1 && forall j :: 0 <= j < |slices| ==> slices[j].sliceNumber != sliceNumber
  {
    if |slices| == 0 then None else Some(ScanFrom(slices, sliceNumber, 0))
  }

  /** The plan entry the loop variable holds after the loop. */
  function PickSlice(slices: seq<SliceHashAddr>, sliceNumber: nat): (s: Option<SliceHashAddr>)
    ensures s.None? <==> |slices| == 0
    ensures (exists j :: 0 <= j < |slices| && slices[j].sliceNumber == sliceNumber) ==>
      s.Some? && s.value.sliceNumber == sliceNumber
    ensures s.Some? && s.value.sliceNumber != sliceNumber ==> s.value == slices[|slices| - 1]
    ensures s.Some? ==> exists k :: 0 <= k < |slices| && s.value == slices[k]
                                    && forall j :: 0 <= j < k ==> slices[j].sliceNumber != sliceNumber
  {
    match PickSliceIndex(slices, sliceNumber)
    case None => None
    case Some(k) =>
      assert forall j :: 0 <= j < k ==> slices[j].sliceNumber != sliceNumber;
      Some(slices[k])
  }

  /** The storage node's answer to an uploaded slice. */
  function RspUploadFileSliceData(local: LocalNode, target: ReqFileSlice): (r: RspUploadFileSlice)
    ensures r.slice == PickSlice(target.assignment.slices, target.sliceNumber)
    ensures r.taskId == target.assignment.taskId && r.fileHash == target.assignment.fileHash
    ensures r.sliceHash == target.sliceHash && r.walletAddress == target.walletAddress
    ensures r.p2pAddress == local.p2pAddress && r.beneficiaryAddress == local.beneficiaryAddress
    ensures r.spP2PAddress == target.assignment.spP2PAddress
    ensures r.result.state == ResSuccess
  {
    RspUploadFileSlice(
      taskId := target.assignment.taskId,
      fileHash := target.assignment.fileHash,
      sliceHash := target.sliceHash,
      p2pAddress := local.p2pAddress,
      walletAddress := target.walletAddress,
      slice := PickSlice(target.assignment.slices, target.sliceNumber),
      result := SUCCESS_RESULT,
      spP2PAddress := target.assignment.spP2PAddress,
      beneficiaryAddress := local.beneficiaryAddress)
  }

  /**
   * The storage node's answer to a backed-up slice. Its size is the chosen
   * entry's `end - start` in `uint64` arithmetic; an empty plan makes the
   * source dereference nil.
   */
  function RspBackupFileSliceData(target: ReqFileSlice): (r: Result<RspBackupFileSlice, Panic>)
    ensures r.Failure? <==> |target.assignment.slices| == 0
    ensures r.Success? ==> Some(r.value.slice) == PickSlice(target.assignment.slices, target.sliceNumber)
    ensures r.Success? ==> IsU64(r.value.sliceSize)
    ensures r.Success? && IsU64(r.value.slice.sliceOffset.end) && 0 <= r.value.slice.sliceOffset.start <= r.value.slice.sliceOffset.end ==>
      r.value.sliceSize == Length(r.value.slice.sliceOffset)
    ensures r.Success? ==> r.value.taskId == target.assignment.taskId && r.value.fileHash == target.assignment.fileHash
    ensures r.Success? ==> r.value.sliceHash == target.sliceHash && r.value.walletAddress == target.walletAddress
    ensures r.Success? ==> r.value.spP2PAddress == target.assignment.spP2PAddress && r.value.result.state == ResSuccess
  {
    match PickSlice(target.assignment.slices, target.sliceNumber)
    case None => Failure(NilSliceDereference)
    case Some(slice) =>
      Success(RspBackupFileSlice(
        taskId := target.assignment.taskId,
        fileHash := target.assignment.fileHash,
        sliceHash := target.sliceHash,
        walletAddress := target.walletAddress,
        slice := slice,
        sliceSize := WrapU64(slice.sliceOffset.end - slice.sliceOffset.start),
        result := SUCCESS_RESULT,
        spP2PAddress := target.assignment.spP2PAddress))
  }

  /** A plan entry whose offsets are inverted wraps the backup size around 2^64. */
  lemma InvertedOffsetsWrapBackupSize(target: ReqFileSlice)
    requires |target.assignment.slices| > 0
    requires var s := PickSlice(target.assignment.slices, target.sliceNumber).value;
      IsU64(s.sliceOffset.start) && s.sliceOffset.end < s.sliceOffset.start && 0 <= s.sliceOffset.end
    ensures var r := RspBackupFileSliceData(target);
      r.Success? && r.value.sliceSize == U64_MODULUS + Length(r.value.slice.sliceOffset)
  {
  }

  /** Upload and backup responses to the same plan report the same slice. */
  lemma UploadAndBackupAgree(local: LocalNode, target: ReqFileSlice)
    requires |target.assignment.slices| > 0
    ensures RspUploadFileSliceData(local, target).slice == Some(RspBackupFileSliceData(target).value.slice)
  {
  }
}

=== FILE: slice_offsets.dfy ===
/**
 * Slice geometry: the byte range of each 1-indexed slice of a file. Every slice
 * but the last has the nominal slice size; the last one absorbs the remainder.
 */
module SliceOffsets {
  import opened Uint
  import opened Messages

  /**
   * The byte range of slice `sliceNumber`. The arithmetic is Go `uint64`
   * arithmetic: `sliceNumber - 1` and both products wrap around.
   */
  function GetSliceOffset(sliceNumber: int, sliceCount: int, sliceSize: int, fileSize: int): (r: SliceOffset)
    requires IsU64(sliceNumber) && IsU64(sliceCount) && IsU64(sliceSize) && IsU64(fileSize)
    ensures IsU64(r.start) && IsU64(r.end)
    ensures 1 <= sliceNumber && (sliceNumber - 1) * sliceSize < U64_MODULUS ==> r.start == (sliceNumber - 1) * sliceSize
    ensures sliceNumber == sliceCount ==> r.end == fileSize
    ensures sliceNumber != sliceCount && sliceNumber * sliceSize < U64_MODULUS ==> r.end == sliceNumber * sliceSize
  {
    var start := WrapU64(WrapU64(sliceNumber - 1) * sliceSize);
    var end := if sliceNumber == sliceCount then fileSize else WrapU64(sliceNumber * sliceSize);
    SliceOffset(start, end)
  }

  /** Slice number 0 is outside the 1-indexed range: its start wraps to 2^64 - sliceSize. */
  lemma ZeroSliceNumberWraps(sliceCount: int, sliceSize: int, fileSize: int)
    requires IsU64(sliceCount) && IsU64(sliceSize) && IsU64(fileSize)
    requires 0 < sliceSize
    ensures GetSliceOffset(0, sliceCount, sliceSize, fileSize).start == U64_MODULUS - sliceSize
  {
    var m := U64_MODULUS;
    assert WrapU64(0 - 1) == m - 1;
    assert (m - 1) * sliceSize == m * (sliceSize - 1) + (m - sliceSize);
  }

  /**
   * The plans the slice planner produces: `sliceCount` slices of `sliceSize`
   * bytes cover the file, and dropping the last one would not.
   */
  predicate ValidGeometry(sliceCount: int, sliceSize: int, fileSize: int) {
    && 1 <= sliceCount
    && IsU64(sliceCount) && IsU64(sliceSize) && IsU64(fileSize)
    && (sliceCount - 1) * sliceSize < fileSize <= sliceCount * sliceSize
  }

  lemma MulMonotone(a: int, b: int, s: int)
    requires 0 <= a <= b && 0 <= s
    ensures a * s <= b * s
  {
    assert b * s - a * s == (b - a) * s;
  }

  /** Every slice of a valid plan is a non-empty range inside the file, no longer than the slice size. */
  lemma SliceBounds(i: int, sliceCount: int, sliceSize: int, fileSize: int)
    requires ValidGeometry(sliceCount, sliceSize, fileSize)
    requires 1 <= i <= sliceCount
    ensures var r := GetSliceOffset(i, sliceCount, sliceSize, fileSize);
      && r.start == (i - 1) * sliceSize
      && (i < sliceCount ==> r.end == i * sliceSize)
      && 0 <= r.start < r.end <= fileSize
      && Length(r) <= sliceSize
  {
    var c, s, f := sliceCount, sliceSize, fileSize;
    MulMonotone(i - 1, c - 1, s);
    assert c * s == (c - 1) * s + s;
    assert 0 < s;
    assert i * s == (i - 1) * s + s;
    if i < c {
      MulMonotone(i, c - 1, s);
    }
  }

  /** Consecutive slices are contiguous: each one ends where the next begins. */
  lemma SlicesContiguous(i: int, sliceCount: int, sliceSize: int, fileSize: int)
    requires ValidGeometry(sliceCount, sliceSize, fileSize)
    requires 1 <= i < sliceCount
    ensures GetSliceOffset(i, sliceCount, sliceSize, fileSize).end == GetSliceOffset(i + 1, sliceCount, sliceSize, fileSize).start
  {
    SliceBounds(i, sliceCount, sliceSize, fileSize);
    SliceBounds(i + 1, sliceCount, sliceSize, fileSize);
  }

  /** Earlier slices lie entirely before later ones, so no byte belongs to two slices. */
  lemma SlicesDisjoint(i: int, j: int, sliceCount: int, sliceSize: int, fileSize: int)
    requires ValidGeometry(sliceCount, sliceSize, fileSize)
    requires 1 <= i < j <= sliceCount
    ensures GetSliceOffset(i, sliceCount, sliceSize, fileSize).end <= GetSliceOffset(j, sliceCount, sliceSize, fileSize).start
  {
    SliceBounds(i, sliceCount, sliceSize, fileSize);
    SliceBounds(j, sliceCount, sliceSize, fileSize);
    MulMonotone(i, j - 1, sliceSize);
  }

  /** Total length of slices 1..k. */
  function SumOfLengths(k: int, sliceCount: int, sliceSize: int, fileSize: int): int
    requires ValidGeometry(sliceCount, sliceSize, fileSize)
    requires 0 <= k <= sliceCount
  {
    if k == 0 then 0
    else SumOfLengths(k - 1, sliceCount, sliceSize, fileSize) + Length(GetSliceOffset(k, sliceCount, sliceSize, fileSize))
  }

  lemma {:induction false} SumOfLengthsReachesEnd(k: int, sliceCount: int, sliceSize: int, fileSize: int)
    requires ValidGeometry(sliceCount, sliceSize, fileSize)
    requires 1 <= k <= sliceCount
    ensures SumOfLengths(k, sliceCount, sliceSize, fileSize) == GetSliceOffset(k, sliceCount, sliceSize, fileSize).end
  {
    SliceBounds(k, sliceCount, sliceSize, fileSize);
    if k > 1 {
      SumOfLengthsReachesEnd(k - 1, sliceCount, sliceSize, fileSize);
      SlicesContiguous(k - 1, sliceCount, sliceSize, fileSize);
    }
  }

  /** The slice lengths of a valid plan add up to the file size exactly. */
  lemma SlicesSumToFileSize(sliceCount: int, sliceSize: int, fileSize: int)
    requires ValidGeometry(sliceCount, sliceSize, fileSize)
    ensures SumOfLengths(sliceCount, sliceCount, sliceSize, fileSize) == fileSize
  {
    SumOfLengthsReachesEnd(sliceCount, sliceCount, sliceSize, fileSize);
  }

  /** The slice that holds byte `p`: `p / sliceSize + 1`, except that the last slice absorbs the tail. */
  function SliceContaining(p: int, sliceCount: int, sliceSize: int): int
    requires 0 <= p && 1 <= sliceCount && 0 < sliceSize
  {
    if p / sliceSize + 1 < sliceCount then p / sliceSize + 1 else sliceCount
  }

  /** Byte `p` lies inside slice `j`. */
  predicate InSlice(p: int, j: int, sliceCount: int, sliceSize: int, fileSize: int)
    requires ValidGeometry(sliceCount, sliceSize, fileSize)
  {
    && 1 <= j <= sliceCount
    && GetSliceOffset(j, sliceCount, sliceSize, fileSize).start <= p < GetSliceOffset(j, sliceCount, sliceSize, fileSize).end
  }

  /** Every byte of the file lies in a slice, and SliceContaining finds it. */
  lemma SliceContainingCovers(p: int, sliceCount: int, sliceSize: int, fileSize: int)
    requires ValidGeometry(sliceCount, sliceSize, fileSize)
    requires 0 <= p < fileSize
    ensures 0 < sliceSize
    ensures InSlice(p, SliceContaining(p, sliceCount, sliceSize), sliceCount, sliceSize, fileSize)
  {
    var c, s, f := sliceCount, sliceSize, fileSize;
    SliceBounds(c, c, s, f);
    var q := DivBounds(p, s);
    var i := SliceContaining(p, c, s);
    if q + 1 < c {
      assert i == q + 1;
      SliceBounds(i, c, s, f);
      assert (q + 1) * s == q * s + s;
    } else {
      assert i == c;
      MulMonotone(c - 1, q, s);
    }
  }

  /** The quotient of `p` by `s` brackets `p` between two multiples of `s`. */
  lemma DivBounds(p: int, s: int) returns (q: int)
    requires 0 <= p && 0 < s
    ensures q == p / s && 0 <= q
    ensures q * s <= p < q * s + s
  {
    q := p / s;
  }

  /** No byte lies in two different slices. */
  lemma SliceOfByteUnique(p: int, i: int, j: int, sliceCount: int, sliceSize: int, fileSize: int)
    requires ValidGeometry(sliceCount, sliceSize, fileSize)
    requires InSlice(p, i, sliceCount, sliceSize, fileSize) && InSlice(p, j, sliceCount, sliceSize, fileSize)
    ensures i == j
  {
    if i < j {
      SlicesDisjoint(i, j, sliceCount, sliceSize, fileSize);
    } else if j < i {
      SlicesDisjoint(j, i, sliceCount, sliceSize, fileSize);
    }
  }

  /** Every byte of the file lies in exactly one slice: the one SliceContaining names. */
  lemma EveryByteInOneSlice(p: int, sliceCount: int, sliceSize: int, fileSize: int)
    requires ValidGeometry(sliceCount, sliceSize, fileSize)
    requires 0 <= p < fileSize
    ensures 0 < sliceSize
    ensures forall j :: InSlice(p, j, sliceCount, sliceSize, fileSize) <==> j == SliceContaining(p, sliceCount, sliceSize)
  {
    SliceContainingCovers(p, sliceCount, sliceSize, fileSize);
    forall j | InSlice(p, j, sliceCount, sliceSize, fileSize)
      ensures j == SliceContaining(p, sliceCount, sliceSize)
    {
      SliceOfByteUnique(p, j, SliceContaining(p, sliceCount, sliceSize), sliceCount, sliceSize, fileSize);
    }
  }

  /** A 2500-byte file in 1000-byte slices: [0,1000), [1000,2000), [2000,2500). */
  lemma ThreeSliceExample()
    ensures GetSliceOffset(1, 3, 1000, 2500) == SliceOffset(0, 1000)
    ensures GetSliceOffset(2, 3, 1000, 2500) == SliceOffset(1000, 2000)
    ensures GetSliceOffset(3, 3, 1000, 2500) == SliceOffset(2000, 2500)
  {
  }
}

=== FILE: slice_split.dfy ===
/**
 * Fragmenting one slice's download response. A fragment tracks two offset
 * spaces at once: the raw (plaintext) range and the wire (encrypted) range.
 */
module SliceSplit {
  import opened Wrappers
  import opened Uint
  import opened Messages

  /** `a` and `b` agree on every field that a fragment copies from its slice response. */
  predicate SameSliceHeader(a: RspDownloadSlice, b: RspDownloadSlice) {
    && a.sliceInfo.sliceHash == b.sliceInfo.sliceHash
    && a.fileCrc == b.fileCrc
    && a.fileHash == b.fileHash
    && a.p2pAddress == b.p2pAddress
    && a.walletAddress == b.walletAddress
    && a.taskId == b.taskId
    && a.sliceSize == b.sliceSize
    && a.result == b.result
    && a.savePath == b.savePath
    && a.spP2PAddress == b.spP2PAddress
    && a.isEncrypted == b.isEncrypted
    && a.isVideoCaching == b.isVideoCaching
    && a.storageP2PAddress == b.storageP2PAddress
    && a.sliceNumber == b.sliceNumber
  }

  /**
   * One fragment of `rsp`. `[dataStart, dataEnd)` is the fragment's wire range,
   * `[offsetStart, offsetEnd)` its raw range and `[sliceOffsetStart, sliceOffsetEnd)`
   * the raw range of the whole slice. The last fragment is stretched to the
   * slice's raw end and to the declared wire size; an encrypted slice reports
   * the whole raw slice range in every fragment.
   */
  function RspDownloadSliceDataSplit(
    rsp: RspDownloadSlice,
    dataStart: int, dataEnd: int, offsetStart: int, offsetEnd: int,
    sliceOffsetStart: int, sliceOffsetEnd: int,
    data: Bytes, last: bool): (r: RspDownloadSlice)
    ensures SameSliceHeader(r, rsp)
    ensures r.needReport == last
    ensures r.data == data
    ensures r.sliceInfo.encryptedSliceOffset.Some?
    ensures r.sliceInfo.encryptedSliceOffset.value.start == dataStart
    ensures r.sliceInfo.encryptedSliceOffset.value.end == (if last then rsp.sliceSize else dataEnd)
    ensures r.sliceInfo.sliceOffset.Some?
    ensures rsp.isEncrypted ==> r.sliceInfo.sliceOffset.value == SliceOffset(sliceOffsetStart, sliceOffsetEnd)
    ensures !rsp.isEncrypted ==> r.sliceInfo.sliceOffset.value.start == offsetStart
    ensures !rsp.isEncrypted && last ==> r.sliceInfo.sliceOffset.value.end == sliceOffsetEnd
    ensures !rsp.isEncrypted && !last ==> r.sliceInfo.sliceOffset.value.end == offsetEnd
  {
    var fragment := rsp.(
      sliceInfo := SliceOffsetInfo(
        rsp.sliceInfo.sliceHash,
        Some(SliceOffset(offsetStart, offsetEnd)),
        Some(SliceOffset(dataStart, dataEnd))),
      data := data,
      needReport := last);
    var stretched :=
      if last then
        fragment.(sliceInfo := fragment.sliceInfo.(
          sliceOffset := Some(SliceOffset(offsetStart, sliceOffsetEnd)),
          encryptedSliceOffset := Some(SliceOffset(dataStart, rsp.sliceSize))))
      else fragment;
    if rsp.isEncrypted then
      stretched.(sliceInfo := stretched.sliceInfo.(sliceOffset := Some(SliceOffset(sliceOffsetStart, sliceOffsetEnd))))
    else stretched
  }

  /** The caller's description of one fragment: its wire range, raw range and payload. */
  datatype FragmentPlan = FragmentPlan(dataStart: int, dataEnd: int, offsetStart: int, offsetEnd: int, data: Bytes)

  /**
   * The fragments of one slice response, built in order with `last` set on the
   * final call only, which is how the sender drives RspDownloadSliceDataSplit.
   */
  function Fragments(rsp: RspDownloadSlice, sliceOffsetStart: int, sliceOffsetEnd: int, plan: seq<FragmentPlan>): (fs: seq<RspDownloadSlice>)
    ensures |fs| == |plan|
    decreases |plan|
  {
    if |plan| == 0 then []
    else
      var p := plan[0];
      [RspDownloadSliceDataSplit(rsp, p.dataStart, p.dataEnd, p.offsetStart, p.offsetEnd,
                                 sliceOffsetStart, sliceOffsetEnd, p.data, |plan| == 1)]
      + Fragments(rsp, sliceOffsetStart, sliceOffsetEnd, plan[1..])
  }

  /** Number of fragments that ask for a download report. */
  function CountReports(fs: seq<RspDownloadSlice>): nat {
    if |fs| == 0 then 0
    else (if fs[0].needReport then 1 else 0) + CountReports(fs[1..])
  }

  /**
   * However a slice is fragmented, exactly one fragment, the final one, asks
   * for a report, so the indexing server receives one report per slice.
   */
  lemma {:induction false} ExactlyOneReport(rsp: RspDownloadSlice, sliceOffsetStart: int, sliceOffsetEnd: int, plan: seq<FragmentPlan>)
    requires |plan| > 0
    ensures var fs := Fragments(rsp, sliceOffsetStart, sliceOffsetEnd, plan);
      && CountReports(fs) == 1
      && fs[|fs| - 1].needReport
      && forall k :: 0 <= k < |fs| - 1 ==> !fs[k].needReport
    decreases |plan|
  {
    var fs := Fragments(rsp, sliceOffsetStart, sliceOffsetEnd, plan);
    if |plan| > 1 {
      ExactlyOneReport(rsp, sliceOffsetStart, sliceOffsetEnd, plan[1..]);
      assert fs[1..] == Fragments(rsp, sliceOffsetStart, sliceOffsetEnd, plan[1..]);
    }
  }

  /** Fragment `k` is the split built from plan entry `k`, marked last exactly when `k` is the final index. */
  lemma {:induction false} FragmentAt(rsp: RspDownloadSlice, sliceOffsetStart: int, sliceOffsetEnd: int, plan: seq<FragmentPlan>, k: int)
    requires 0 <= k < |plan|
    ensures var p := plan[k];
      Fragments(rsp, sliceOffsetStart, sliceOffsetEnd, plan)[k]
        == RspDownloadSliceDataSplit(rsp, p.dataStart, p.dataEnd, p.offsetStart, p.offsetEnd,
                                     sliceOffsetStart, sliceOffsetEnd, p.data, k == |plan| - 1)
    decreases k
  {
    if k > 0 {
      FragmentAt(rsp, sliceOffsetStart, sliceOffsetEnd, plan[1..], k - 1);
    }
  }

  /** The wire range a fragment carries. */
  function WireRange(f: RspDownloadSlice): SliceOffset {
    match f.sliceInfo.encryptedSliceOffset
    case Some(r) => r
    case None => SliceOffset(0, 0)
  }

  /** The wire ranges of the planned fragments follow one another from offset 0. */
  predicate WireRangesChained(plan: seq<FragmentPlan>) {
    && (|plan| > 0 ==> plan[0].dataStart == 0)
    && forall k :: 0 <= k < |plan| - 1 ==> plan[k].dataEnd == plan[k + 1].dataStart
  }

  /**
   * With chained wire ranges, the fragments' wire ranges tile the slice: the
   * first starts at 0, each starts where the previous ended, and the last ends
   * at the declared slice size.
   */
  lemma WireRangesTileSlice(rsp: RspDownloadSlice, sliceOffsetStart: int, sliceOffsetEnd: int, plan: seq<FragmentPlan>)
    requires |plan| > 0 && WireRangesChained(plan)
    ensures var fs := Fragments(rsp, sliceOffsetStart, sliceOffsetEnd, plan);
      && WireRange(fs[0]).start == 0
      && WireRange(fs[|fs| - 1]).end == rsp.sliceSize
      && forall k :: 0 <= k < |fs| - 1 ==> WireRange(fs[k]).end == WireRange(fs[k + 1]).start
  {
    var fs := Fragments(rsp, sliceOffsetStart, sliceOffsetEnd, plan);
    FragmentAt(rsp, sliceOffsetStart, sliceOffsetEnd, plan, 0);
    FragmentAt(rsp, sliceOffsetStart, sliceOffsetEnd, plan, |plan| - 1);
    forall k | 0 <= k < |fs| - 1
      ensures WireRange(fs[k]).end == WireRange(fs[k + 1]).start
    {
      FragmentAt(rsp, sliceOffsetStart, sliceOffsetEnd, plan, k);
      FragmentAt(rsp, sliceOffsetStart, sliceOffsetEnd, plan, k + 1);
    }
  }

  /** For an encrypted slice every fragment reports the raw range of the whole slice. */
  lemma EncryptedFragmentsCarryWholeRawRange(rsp: RspDownloadSlice, sliceOffsetStart: int, sliceOffsetEnd: int, plan: seq<FragmentPlan>)
    requires rsp.isEncrypted
    ensures var fs := Fragments(rsp, sliceOffsetStart, sliceOffsetEnd, plan);
      forall k :: 0 <= k < |fs| ==> fs[k].sliceInfo.sliceOffset == Some(SliceOffset(sliceOffsetStart, sliceOffsetEnd))
  {
    var fs := Fragments(rsp, sliceOffsetStart, sliceOffsetEnd, plan);
    forall k | 0 <= k < |fs|
      ensures fs[k].sliceInfo.sliceOffset == Some(SliceOffset(sliceOffsetStart, sliceOffsetEnd))
    {
      FragmentAt(rsp, sliceOffsetStart, sliceOffsetEnd, plan, k);
    }
  }
}

=== FILE: uint.dfy ===
/** Fixed-width integer behaviour of Go made explicit over Dafny's unbounded integers. */
module Uint {

  const U64_MODULUS: int := 0x1_0000_0000_0000_0000
  const I64_LIMIT: int := 0x8000_0000_0000_0000

  newtype uint8 = x: int | 0 <= x < 256

  type Bytes = seq<uint8>

  predicate IsU64(x: int) {
    0 <= x < U64_MODULUS
  }

  /** The value a Go `uint64` holds after an arithmetic result `x` wraps around. */
  function WrapU64(x: int): (r: int)
    ensures IsU64(r)
    ensures IsU64(x) ==> r == x
    ensures (r - x) % U64_MODULUS == 0
  {
    x % U64_MODULUS
  }

  /** Go's `int64(u)` conversion of a `uint64`: values of 2^63 and above turn negative. */
  function Int64OfU64(u: int): (r: int)
    requires IsU64(u)
    ensures -I64_LIMIT <= r < I64_LIMIT
    ensures u < I64_LIMIT ==> r == u
    ensures I64_LIMIT <= u ==> r < 0 && r == u - U64_MODULUS
    ensures WrapU64(r) == u
  {
    if u < I64_LIMIT then u else u - U64_MODULUS
  }
}

=== FILE: upload_request.dfy ===
/**
 * Building an upload request for the indexing server, and resetting the
 * upload-progress entry of the file. Progress entries are keyed by file hash
 * alone, so two owners uploading identical content share one entry.
 */
module UploadRequest {
  import opened Wrappers
  import opened Uint
  import opened Messages
  import Hex

  datatype FileInfo = FileInfo(
    fileSize: int,
    fileName: string,
    fileHash: string,
    storagePath: string,
    encryptionTag: string,
    ownerWalletAddress: string,
    duration: int)

  datatype ReqUploadFile = ReqUploadFile(
    fileInfo: FileInfo,
    slices: seq<SliceHashAddr>,
    myAddress: PPBaseInfo,
    signature: Signature,
    desiredTier: nat,
    allowHigherTier: bool,
    reqTime: int)

  /** Byte progress of one upload; `total` is the file size as a Go `int64`. */
  datatype UploadProgress = UploadProgress(total: int, hasUpload: int)

  datatype UploadError = WrongWalletPubkey | WrongSignature

  /** A request (or the reason none was built) and the progress map afterwards. */
  datatype UploadStep = UploadStep(req: Result<ReqUploadFile, UploadError>, progress: map<string, UploadProgress>)

  /** Length of the random encryption tag drawn for an encrypted upload. */
  const ENCRYPTION_TAG_LENGTH: nat := 8

  const RPC_STORAGE_PREFIX: string := "rpc:"

  /** A fresh progress entry for a file of `fileSize` bytes: nothing uploaded yet. */
  function FreshProgress(fileSize: int): (p: UploadProgress)
    requires IsU64(fileSize)
    ensures p.hasUpload == 0
    ensures fileSize < I64_LIMIT ==> p.total == fileSize
    ensures fileSize >= I64_LIMIT ==> p.total < 0 && p.total == fileSize - U64_MODULUS
  {
    UploadProgress(Int64OfU64(fileSize), 0)
  }

  /**
   * Upload request on behalf of a wallet owner. `decodedPubkey` is the bech32
   * decoding of the owner's public key (none when it fails) and `randomTag` the
   * random string drawn for an encrypted upload. The key is checked first, then
   * the hex signature; only a request that passes both resets the progress
   * entry.
   */
  function RequestUploadFile(
    local: LocalNode, fileName: string, fileHash: string, fileSize: int, walletAddress: string,
    decodedPubkey: Option<Bytes>, signature: string, reqTime: int, slices: seq<SliceHashAddr>,
    isEncrypted: bool, desiredTier: nat, allowHigherTier: bool, duration: int, randomTag: string,
    progress: map<string, UploadProgress>): (r: UploadStep)
    requires IsU64(fileSize)
    requires |randomTag| == ENCRYPTION_TAG_LENGTH
    ensures decodedPubkey.None? ==> r.req == Failure(WrongWalletPubkey)
    ensures decodedPubkey.Some? && Hex.DecodeString(signature).None? ==> r.req == Failure(WrongSignature)
    ensures r.req.Success? <==> decodedPubkey.Some? && Hex.DecodeString(signature).Some?
    ensures r.req.Failure? ==> r.progress == progress
    ensures r.req.Success? ==> r.progress == progress[fileHash := FreshProgress(fileSize)]
    ensures r.req.Success? ==>
      var info := r.req.value.fileInfo;
      && info.fileSize == fileSize && info.fileName == fileName && info.fileHash == fileHash
      && info.storagePath == RPC_STORAGE_PREFIX + fileName
      && (info.encryptionTag == "" <==> !isEncrypted)
      && info.ownerWalletAddress == walletAddress && info.duration == duration
    ensures r.req.Success? ==>
      r.req.value.signature == Signature(walletAddress, decodedPubkey.value, Hex.DecodeString(signature).value, WalletSignature)
    ensures r.req.Success? ==>
      && r.req.value.slices == slices && r.req.value.myAddress == local.ppInfo
      && r.req.value.desiredTier == desiredTier && r.req.value.allowHigherTier == allowHigherTier
      && r.req.value.reqTime == reqTime
  {
    var encryptionTag := if isEncrypted then randomTag else "";
    match decodedPubkey
    case None => UploadStep(Failure(WrongWalletPubkey), progress)
    case Some(pubkey) =>
      match Hex.DecodeString(signature)
      case None => UploadStep(Failure(WrongSignature), progress)
      case Some(sig) =>
        var info := FileInfo(fileSize, fileName, fileHash, RPC_STORAGE_PREFIX + fileName, encryptionTag, walletAddress, duration);
        var req := ReqUploadFile(info, slices, local.ppInfo, Signature(walletAddress, pubkey, sig, WalletSignature),
                                 desiredTier, allowHigherTier, reqTime);
        UploadStep(Success(req), progress[fileHash := FreshProgress(fileSize)])
  }

  /**
   * Upload request on behalf of the node's own wallet, whose key and signature
   * are already bytes: it cannot fail, and always resets the progress entry.
   */
  function RequestUploadFileData(
    local: LocalNode, fileInfo: FileInfo, slices: seq<SliceHashAddr>, desiredTier: nat, allowHigherTier: bool,
    walletAddr: string, walletPubkey: Bytes, walletSign: Bytes, reqTime: int,
    progress: map<string, UploadProgress>): (r: (ReqUploadFile, map<string, UploadProgress>))
    requires IsU64(fileInfo.fileSize)
    ensures r.0.fileInfo == fileInfo && r.0.slices == slices && r.0.myAddress == local.ppInfo
    ensures r.0.signature == Signature(walletAddr, walletPubkey, walletSign, WalletSignature)
    ensures r.0.desiredTier == desiredTier && r.0.allowHigherTier == allowHigherTier && r.0.reqTime == reqTime
    ensures r.1.Keys == progress.Keys + {fileInfo.fileHash}
    ensures r.1[fileInfo.fileHash] == FreshProgress(fileInfo.fileSize)
    ensures forall h :: h in progress && h != fileInfo.fileHash ==> r.1[h] == progress[h]
  {
    var req := ReqUploadFile(fileInfo, slices, local.ppInfo, Signature(walletAddr, walletPubkey, walletSign, WalletSignature),
                             desiredTier, allowHigherTier, reqTime);
    (req, progress[fileInfo.fileHash := FreshProgress(fileInfo.fileSize)])
  }

  /**
   * The two entry points agree: feeding a successful owner request's file info,
   * key and signature bytes to the own-wallet builder rebuilds the same request
   * and the same progress map.
   */
  lemma UploadEntryPointsAgree(
    local: LocalNode, fileName: string, fileHash: string, fileSize: int, walletAddress: string,
    decodedPubkey: Option<Bytes>, signature: string, reqTime: int, slices: seq<SliceHashAddr>,
    isEncrypted: bool, desiredTier: nat, allowHigherTier: bool, duration: int, randomTag: string,
    progress: map<string, UploadProgress>)
    requires IsU64(fileSize) && |randomTag| == ENCRYPTION_TAG_LENGTH
    requires RequestUploadFile(local, fileName, fileHash, fileSize, walletAddress, decodedPubkey, signature, reqTime,
                               slices, isEncrypted, desiredTier, allowHigherTier, duration, randomTag, progress).req.Success?
    ensures var r := RequestUploadFile(local, fileName, fileHash, fileSize, walletAddress, decodedPubkey, signature, reqTime,
                                       slices, isEncrypted, desiredTier, allowHigherTier, duration, randomTag, progress);
      var req := r.req.value;
      RequestUploadFileData(local, req.fileInfo, slices, desiredTier, allowHigherTier, walletAddress,
                            req.signature.pubkey, req.signature.signature, reqTime, progress) == (req, r.progress)
  {
  }

  /**
   * A signature written by Go's hex encoder is always accepted, so with a valid
   * key the request succeeds and the signature bytes round-trip.
   */
  lemma EncodedSignatureAccepted(
    local: LocalNode, fileName: string, fileHash: string, fileSize: int, walletAddress: string,
    pubkey: Bytes, sig: Bytes, reqTime: int, slices: seq<SliceHashAddr>,
    isEncrypted: bool, desiredTier: nat, allowHigherTier: bool, duration: int, randomTag: string,
    progress: map<string, UploadProgress>)
    requires IsU64(fileSize) && |randomTag| == ENCRYPTION_TAG_LENGTH
    ensures var r := RequestUploadFile(local, fileName, fileHash, fileSize, walletAddress, Some(pubkey),
                                       Hex.EncodeToString(sig), reqTime, slices, isEncrypted, desiredTier,
                                       allowHigherTier, duration, randomTag, progress);
      r.req.Success? && r.req.value.signature.signature == sig
  {
    Hex.DecodeEncode(sig);
  }

  /**
   * Two wallets uploading the same content share one progress entry: after
   * both requests the map has a single entry for the file, the later one's.
   */
  lemma SameContentSharesProgress(
    local: LocalNode, a: FileInfo, b: FileInfo, slices: seq<SliceHashAddr>,
    pubA: Bytes, sigA: Bytes, pubB: Bytes, sigB: Bytes, progress: map<string, UploadProgress>)
    requires IsU64(a.fileSize) && IsU64(b.fileSize)
    requires a.fileHash == b.fileHash && a.ownerWalletAddress != b.ownerWalletAddress
    ensures var first := RequestUploadFileData(local, a, slices, 0, false, a.ownerWalletAddress, pubA, sigA, 0, progress).1;
      var second := RequestUploadFileData(local, b, slices, 0, false, b.ownerWalletAddress, pubB, sigB, 0, first).1;
      && second.Keys == progress.Keys + {a.fileHash}
      && second[a.fileHash] == FreshProgress(b.fileSize)
  {
  }
}

=== FILE: wrappers.dfy ===
/** Failure-compatible result types shared by every module of the model. */
module Wrappers {

  /** A value that may be absent: a Go nil pointer, a missing map entry. */
  datatype Option<+T> = None | Some(value: T)

  /** Either a value or an error: a Go `(value, error)` pair, or a panic path. */
  datatype Result<+R, +E> = Success(value: R) | Failure(error: E)
}

=== FILE: wrong_slices.dfy ===
/**
 * The "download slices wrong" request: a snapshot of a download task's failure
 * sets, sent to the indexing server so it can reassign the failed slices.
 */
module WrongSlices {
  import opened Messages
  import opened Enumeration

  datatype FileIndexes = FileIndexes(p2pAddress: string, walletAddress: string, savePath: string)

  datatype ReqDownloadFileWrong = ReqDownloadFileWrong(
    fileIndexes: FileIndexes,
    fileHash: string,
    failedSlices: seq<string>,
    failedPpNodes: seq<PPBaseInfo>,
    taskId: string)

  /**
   * Go's `for k, v := range m`: every entry is visited once, in an order the
   * language leaves unspecified (keys are strings here). Returns the keys in visiting order and the
   * values alongside them.
   */
  method RangeMap<V>(m: map<string, V>) returns (ks: seq<string>, vs: seq<V>)
    ensures EnumeratesKeys(ks, m)
    ensures |vs| == |ks|
    ensures forall i :: 0 <= i < |ks| ==> vs[i] == m[ks[i]]
  {
    ks, vs := [], [];
    var rest := m.Keys;
    while rest != {}
      invariant rest <= m.Keys
      invariant |ks| + |rest| == |m.Keys|
      invariant forall k :: k in ks <==> k in m.Keys && k !in rest
      invariant forall i, j :: 0 <= i < j < |ks| ==> ks[i] != ks[j]
      invariant |vs| == |ks|
      invariant forall i :: 0 <= i < |ks| ==> ks[i] in m && vs[i] == m[ks[i]]
      decreases |rest|
    {
      var k :| k in rest;
      ks, vs := ks + [k], vs + [m[k]];
      rest := rest - {k};
    }
    assert |m.Keys| == |m|;
  }

  /**
   * The wrong-slices request for download task `dTask` of the file described by
   * `fInfo`: every failed slice hash once, and every failed peer once.
   */
  method ReqDownloadFileWrongData(fInfo: RspFileStorageInfo, dTask: DownloadTask)
    returns (r: ReqDownloadFileWrong, ghost peerOrder: seq<string>)
    ensures EnumeratesKeys(r.failedSlices, dTask.failedSlice)
    ensures EnumeratesKeys(peerOrder, dTask.failedPPNodes)
    ensures |r.failedPpNodes| == |peerOrder|
    ensures forall i :: 0 <= i < |peerOrder| ==> r.failedPpNodes[i] == dTask.failedPPNodes[peerOrder[i]]
    ensures r.fileIndexes == FileIndexes(fInfo.p2pAddress, fInfo.walletAddress, fInfo.savePath)
    ensures r.fileHash == fInfo.fileHash && r.taskId == dTask.taskId
  {
    var failedSlices, _ := RangeMap(dTask.failedSlice);
    var nodeKeys, failedPPNodes := RangeMap(dTask.failedPPNodes);
    peerOrder := nodeKeys;
    r := ReqDownloadFileWrong(
      fileIndexes := FileIndexes(fInfo.p2pAddress, fInfo.walletAddress, fInfo.savePath),
      fileHash := fInfo.fileHash,
      failedSlices := failedSlices,
      failedPpNodes := failedPPNodes,
      taskId := dTask.taskId);
  }

  /** Any two enumerations of the same map's keys are permutations of each other. */
  lemma EnumerationsArePermutations<V>(ks1: seq<string>, ks2: seq<string>, m: map<string, V>)
    requires EnumeratesKeys(ks1, m) && EnumeratesKeys(ks2, m)
    ensures multiset(ks1) == multiset(ks2)
  {
    DistinctMultiset(ks1);
    DistinctMultiset(ks2);
    assert forall k :: k in ks1 <==> k in ks2;
  }
}
